=== FILE: README.md ===
# ChestXray-Triage dataset preprocessing, modelled in Dafny

This project models `scripts/preprocess.py` of ChestXray-Triage. The script assembles a training set for a
chest X-ray classifier:

1. It creates the layout `data/processed/{train,val,test}/{pneumonia,tuberculosis,normal}`.
2. It scans the raw pneumonia dataset (`train/PNEUMONIA`, `train/NORMAL`) and the raw tuberculosis dataset
   (`Tuberculosis`, `Normal`) for files ending in `.jpeg`, `.jpg` or `.png`.
3. It draws up to 500 pneumonia, 200 normal and 500 tuberculosis images with `random.sample`.
4. It cuts each sample 70/30, then cuts the 30 in half, with `train_test_split(random_state=42)`.
5. It copies every image to `data/processed/{split}/{category}/{category}_{split}_{i:04d}{ext}`.
6. It rescans the nine output directories and writes one row per image to `data/processed/metadata.csv`.

The model has these modules:

- `FileSystem`: the directory tree as a class with `files: map<Path, Bytes>` and `dirs: set<Path>`.
  It provides the library calls the script makes: `os.makedirs`, `shutil.copy2`, `os.listdir`, `os.walk`,
  and the CSV write.
- `Naming`: the image-suffix filter, `os.path.splitext`, and the `{i:04d}` numeral.
- `Layout`: the output directories and the destination names.
- `Selection`: `random.sample` and `train_test_split`. The random choices are parameters: a `Sampler` per
  `random.sample` call, and a `Shuffle` for the fixed seed. Every property holds for every choice.
- `Scanning`: the `os.walk` loops.
- `Copying`: `copy_images`, as a loop proved against the function `CopyFrom`.
- `Placement`: what a series of copies does to the files.
- `Datasets`: `process_pneumonia_data` and `process_tuberculosis_data`.
- `Metadata`: `create_metadata_csv`'s rescan.
- `Preprocess`: `preprocess_data`.

Every exception the script can raise on the way is a `PipelineError` value:

- `os.makedirs` finds a file in the way.
- `train_test_split` raises `ValueError`.
- `shutil.copy2` fails.
- Writing `metadata.csv` fails.

The main results are stated on `Preprocess.PreprocessData`:

- Files change only inside the ten output directories. Nothing is ever removed.
- Only the destinations of the drawn images' copies and `metadata.csv` are ever written. On a tree whose output directories start empty, every row of `metadata.csv` names one of those copies.
- The run stops with each error exactly in the circumstances listed, and each error says what it leaves behind. A `makedirs` failure changes no file. A split failure writes no tuberculosis image. A tuberculosis failure keeps the pneumonia and normal copies. A copy failure names the refused copy.
- On a fresh tree the run completes exactly when every class yields at least four images.
- A completed run leaves these behind:
  - three draws: duplicate-free, taken from the scanned pools, with sizes 70/15/15 of `min(quota, pool)`;
  - every drawn image copied, with its original content, to its destination;
  - `metadata.csv` holding a rescan of the layout, which lists every copy whose name passes the filter.

## Model

| member | source | states |
|---|---|---|
| FileSystem.FileSystem.MakeDirs | ChestXray-Triage/scripts/preprocess.py:14 | `os.makedirs(exist_ok=True)` succeeds exactly when no prefix of the path is a file. It then adds the path and all its ancestors as directories. Files never change, and the tree stays well formed. |
| FileSystem.FileSystem.Copy2 | ChestXray-Triage/scripts/preprocess.py:110 | `shutil.copy2` succeeds exactly when the source is a file, the destination differs from the source, the destination's parent is a directory and the destination is not a directory. The destination then gets the source's bytes, and nothing else changes. |
| FileSystem.FileSystem.WriteFile | ChestXray-Triage/scripts/preprocess.py:140 | The CSV write succeeds exactly when the parent is a directory and the path is not one. It then creates or replaces that one file; otherwise nothing changes. |
| FileSystem.FileSystem.ListDir | ChestXray-Triage/scripts/preprocess.py:123 | `os.listdir` of an existing directory returns exactly the names of the files and directories directly inside it. |
| Naming.Decimal | ChestXray-Triage/scripts/preprocess.py:106 | The numeral of `n` consists of digits, reads back as `n`, and has no leading zero unless it is the single digit `0`. |
| Naming.Pad4 | ChestXray-Triage/scripts/preprocess.py:106 | `{i:04d}` consists of digits, has length `max(4, len(str(i)))`, and reads back as `i`. |
| Naming.Pad4FixedWidth | ChestXray-Triage/scripts/preprocess.py:106 | Every index below 10000 is written with exactly four characters. |
| Naming.SplitExt | ChestXray-Triage/scripts/preprocess.py:106 | `os.path.splitext(...)[1]` is either empty, or a dot followed by dot-free text that ends the name and is shorter than it. |
| Naming.SplitExtNonEmpty | ChestXray-Triage/scripts/preprocess.py:106 | The extension is non-empty exactly when some dot of the name has a character other than a dot before it. Together with `SplitExt`'s shape, this makes it the text from the last dot on. |
| Naming.ImageSuffix | ChestXray-Triage/scripts/preprocess.py:35 | A name that passes the filter ends in one of `.jpeg`, `.jpg`, `.png`, and this function names which. |
| Naming.ImageSuffixIsExtension | ChestXray-Triage/scripts/preprocess.py:106 | For a filtered name with something other than dots before its suffix, the extension is exactly that suffix. |
| Naming.DotStemLosesExtension | ChestXray-Triage/scripts/preprocess.py:106 | For a filtered name made only of dots before its suffix (`.png`, `..jpg`), the extension is empty. |
| Naming.DigitsThenExtension | ChestXray-Triage/scripts/preprocess.py:106 | A digit string followed by an extension can be split again uniquely: equal concatenations mean equal digits and equal extensions. |
| Naming.ImageNameByExtension | ChestXray-Triage/scripts/preprocess.py:124 | A dot-free stem plus an extension passes the filter exactly when the extension is one of the three suffixes. |
| Naming.StemExtensionImage | ChestXray-Triage/scripts/preprocess.py:124 | A dot-free stem plus the extension of a filtered name passes the filter exactly when that name has something other than dots before its suffix. |
| Layout.FileNameFormat | ChestXray-Triage/scripts/preprocess.py:106 | For an index below 10000 the name is `{category}_{split}_`, then four digits that spell the index, then the source's extension. |
| Layout.FileNameDeterminesIndex | ChestXray-Triage/scripts/preprocess.py:106 | Two positions of one call that get the same name are the same position, whatever the source names. |
| Layout.FileNameParts | ChestXray-Triage/scripts/preprocess.py:106 | The destination name is the prefix `{category}_{split}_`, then the padded index followed by the source's extension. |
| Layout.DestinationsDistinct | ChestXray-Triage/scripts/preprocess.py:106-107 | Within one `copy_images` call, different positions get different destination paths. |
| Layout.CopiedNameIsImage | ChestXray-Triage/scripts/preprocess.py:106-124 | A copied image's new name passes the rescan's filter exactly when the source name has something other than dots before its image suffix. |
| Selection.SampleQuota | ChestXray-Triage/scripts/preprocess.py:46-47 | `random.sample(pool, min(q, len(pool)))` returns exactly `min(q, |pool|)` items. All come from the pool, and none repeats when the pool has no repeats. |
| Selection.PickFacts | ChestXray-Triage/scripts/preprocess.py:46 | Picking distinct positions gives a sub-collection, duplicate-free if the items are. Picking all positions gives every item. |
| Selection.TrainTestSplit | ChestXray-Triage/scripts/preprocess.py:50 | One `train_test_split` succeeds exactly when the train part would be non-empty. Test then has `TestCount` items and train the rest. |
| Selection.TrainTestSplitPartition | ChestXray-Triage/scripts/preprocess.py:50 | Train and test together hold exactly the items. They repeat none and share none when the items are duplicate-free. |
| Selection.ThreeWayPartition | ChestXray-Triage/scripts/preprocess.py:50-51 | Train, val and test together hold exactly the sample, and their sizes add up to it. For a duplicate-free sample they are pairwise disjoint and duplicate-free. |
| Selection.ThreeWaySizes | ChestXray-Triage/scripts/preprocess.py:50-51 | The two-stage split succeeds exactly for samples of at least four items. The parts then have the sizes `SplitSizes` gives. |
| Selection.QuotaSplitSizes | ChestXray-Triage/scripts/preprocess.py:45-54 | Samples of 500, 200 and 100 items split as 350/75/75, 140/30/30 and 70/15/15. |
| Scanning.CollectImages | ChestXray-Triage/scripts/preprocess.py:33-36 | The scan loop returns, each once, exactly the walked files whose base name passes the image filter. |
| Copying.CopyImages | ChestXray-Triage/scripts/preprocess.py:102-110 | The copy loop leaves the files, and the failing position, exactly as the run of `copy2` calls `CopyFrom` describes. Directories are unchanged. |
| Copying.CopyFromKeys | ChestXray-Triage/scripts/preprocess.py:104-110 | The copies that happen add exactly their destinations to the files. |
| Copying.CopyFromKept | ChestXray-Triage/scripts/preprocess.py:104-110 | Every path that is not a destination of a completed copy keeps its content. |
| Copying.CopyFromFrame | ChestXray-Triage/scripts/preprocess.py:104-110 | Combines the two lemmas above: the stop position is in range, exactly the completed destinations are added, and everything else is kept. |
| Copying.CopyFromStops | ChestXray-Triage/scripts/preprocess.py:104-110 | When no source is a destination, the run stops exactly at the first copy not allowed in the initial state. |
| Copying.CopyFromFails | ChestXray-Triage/scripts/preprocess.py:104-110 | A run that raised stopped at a copy that `shutil.copy2` refuses on the files as the earlier copies left them. |
| Copying.CopyFromStored | ChestXray-Triage/scripts/preprocess.py:104-110 | With distinct destinations that are not sources, every completed destination holds its source's original bytes. |
| Copying.CopyFromContents | ChestXray-Triage/scripts/preprocess.py:104-110 | Combines the two lemmas above. |
| Copying.DestinationsFacts | ChestXray-Triage/scripts/preprocess.py:106-107 | The destinations of one call are distinct, and all lie in the output directory. None is a source kept outside that directory. |
| Placement.CopyStep | ChestXray-Triage/scripts/preprocess.py:104-110 | Seen from the files before a series of calls, one call changes files only in its own directory, and writes no path but its own destinations. If it completes, every source is stored at its destination. If its directory exists and holds no directory, it completes. |
| Placement.StoredKept | ChestXray-Triage/scripts/preprocess.py:57-63 | A later `copy_images` call into another directory keeps earlier copies. |
| Placement.SourcesKept | ChestXray-Triage/scripts/preprocess.py:57-63 | Changes inside `data/processed` keep every raw source, with its content. |
| Placement.StoredRebase | ChestXray-Triage/scripts/preprocess.py:57-63 | Copies stored against an intermediate state are stored against the original state when the sources were untouched in between. |
| Placement.WrittenTrans | ChestXray-Triage/scripts/preprocess.py:57-63 | Two series of writes compose, and the paths written are the union. |
| Placement.WrittenWiden | ChestXray-Triage/scripts/preprocess.py:57-63 | Writing only some paths means writing only within any larger set of paths. |
| Placement.UntouchedTrans | ChestXray-Triage/scripts/preprocess.py:57-63 | Two series of changes compose, and what may have changed is the union. |
| Datasets.RawDirs | ChestXray-Triage/scripts/preprocess.py:29-31 | The three raw directories the script draws from lie outside `data/processed`. |
| Datasets.ScanPool | ChestXray-Triage/scripts/preprocess.py:33-36 | A scan's result holds exactly the image files below its directory. |
| Datasets.SampleAndSplit | ChestXray-Triage/scripts/preprocess.py:46-54 | For every sampler and shuffle, the split succeeds exactly when at least four images are drawn. The result is then duplicate-free, taken from the pool, and sized per `SplitSizes(min(quota, pool))`. |
| Datasets.RawSources | ChestXray-Triage/scripts/preprocess.py:29-36 | Images drawn from a raw dataset are files that lie outside `data/processed`. |
| Datasets.SourceImagesKept | ChestXray-Triage/scripts/preprocess.py:73-76 | Copies into `data/processed` do not change what a later scan of a raw directory finds. |
| Datasets.CategoryDirsDisjoint | ChestXray-Triage/scripts/preprocess.py:107 | Different categories write into different directories. |
| Datasets.PlacedRebase | ChestXray-Triage/scripts/preprocess.py:57-63 | A placement shown against an intermediate state holds against the original state. |
| Datasets.PlacedKept | ChestXray-Triage/scripts/preprocess.py:61-63 | Copies into another category's directories keep a placement. |
| Datasets.Batch | ChestXray-Triage/scripts/preprocess.py:57 | One `copy_images` call changes files only in its own directory, and writes no path but the destinations of its sources. It stores every source when it completes, and it completes when its directory is ready. |
| Datasets.CopyAssignment | ChestXray-Triage/scripts/preprocess.py:57-59 | The train, val and test calls of one category change files only in that category's three directories, and write no path but the assignment's destinations. On success every image is stored. Otherwise the error names the category, the split and the position of a copy that `shutil.copy2` refuses on the tree as left. With ready directories it cannot fail. |
| Datasets.CopyBoth | ChestXray-Triage/scripts/preprocess.py:57-63 | The pneumonia copies then the normal copies. Only the two assignments' destinations are written. Both placements hold on success. An error names a refused copy of the pneumonia part, or of the normal part after the pneumonia part was placed. Ready directories mean success. |
| Datasets.DrawPneumonia | ChestXray-Triage/scripts/preprocess.py:31-54 | The pneumonia draw fails, with a split error, exactly when either class would yield fewer than four images. The error names pneumonia exactly when the pneumonia class is short, because that split runs first. Otherwise both draws are valid draws from their scanned pools. |
| Datasets.ProcessPneumonia | ChestXray-Triage/scripts/preprocess.py:25-63 | `process_pneumonia_data` changes only the pneumonia and normal directories. It gives a split error exactly when a class is short, and then the files are unchanged. A copy error names a refused copy of a valid draw, and only that draw's destinations were written. On success the draws are valid, every image is placed, and only the two draws' destinations were written. With ready directories, split errors are the only failures. |
| Datasets.DrawTuberculosis | ChestXray-Triage/scripts/preprocess.py:71-95 | The tuberculosis draw fails, with a split error naming tuberculosis, exactly when fewer than four images would be drawn. Otherwise it is a valid draw. |
| Datasets.ProcessTuberculosis | ChestXray-Triage/scripts/preprocess.py:65-100 | `process_tuberculosis_data` gives the same guarantees as `ProcessPneumonia`, for the tuberculosis class, including that only the draw's destinations are written. Its errors always name tuberculosis. |
| Metadata.MakeRow | ChestXray-Triage/scripts/preprocess.py:128-136 | The row's flags are one-hot and name the category. Its source is `pneumonia_dataset` exactly for pneumonia and normal. Its id, path and split are the file's name, full path and split. |
| Metadata.GroupOfRow | ChestXray-Triage/scripts/preprocess.py:119-120 | The row made in loop iteration `g` can be read back as belonging to `g`. |
| Metadata.GroupRowInjective | ChestXray-Triage/scripts/preprocess.py:128-136 | Rows of different directories, or of different names, differ. |
| Metadata.DirectoryRows | ChestXray-Triage/scripts/preprocess.py:121-136 | The `listdir` loop yields one row per image entry of the directory, none twice, and each the row of its name. |
| Metadata.RowsForFacts | ChestXray-Triage/scripts/preprocess.py:123-136 | A directory has as many rows as image entries. The row of name `n` is present exactly when `n` is an image entry. |
| Metadata.ScanGroup | ChestXray-Triage/scripts/preprocess.py:119-136 | Visiting one more directory extends the scan. |
| Metadata.CreateMetadata | ChestXray-Triage/scripts/preprocess.py:112-136 | The rescan succeeds exactly when all nine directories exist; otherwise it reports the first missing one in visiting order. On success the rows are a rescan of the layout. |
| Metadata.InGroup | ChestXray-Triage/scripts/preprocess.py:128-136 | A row of a directory is that directory's row for one of its image entries. |
| Metadata.FlattenMembers | ChestXray-Triage/scripts/preprocess.py:119-128 | A row is in `metadata` exactly when it is in one directory's rows. |
| Metadata.EarlierGroupsDisjoint | ChestXray-Triage/scripts/preprocess.py:119-128 | Rows of earlier directories never reappear for a later one. |
| Metadata.FlattenFacts | ChestXray-Triage/scripts/preprocess.py:115-136 | The metadata list has one row per image entry of the visited directories, none twice, each from one of them. |
| Metadata.RescanRows | ChestXray-Triage/scripts/preprocess.py:119-136 | A rescan has as many rows as image entries and no duplicates. The row of name `n` in directory `h` is present exactly when `n` is an image entry there. |
| Metadata.RescanFinds | ChestXray-Triage/scripts/preprocess.py:123-125 | An image file in one of the nine directories has its row in the rescan. |
| Metadata.RescanRowFacts | ChestXray-Triage/scripts/preprocess.py:128-136 | Every row belongs to one directory and is that directory's row of an image entry there. Its flags are one-hot, and its path names an existing entry. |
| Metadata.EntryRow | ChestXray-Triage/scripts/preprocess.py:125-136 | The row of an image entry is one-hot, and its path exists. |
| Preprocess.MakeGroupDir | ChestXray-Triage/scripts/preprocess.py:14 | One `makedirs` of the loop creates output directory `3*si+ci`. It succeeds exactly when no file lies on that path. |
| Preprocess.MadeStep | ChestXray-Triage/scripts/preprocess.py:12-14 | One more successful `makedirs` extends what the loop has made. |
| Preprocess.MakeSplitDirs | ChestXray-Triage/scripts/preprocess.py:13-14 | The inner loop for one split makes its three directories, or stops at the first failing one, named together with the state at that point. |
| Preprocess.CreateOutputDirs | ChestXray-Triage/scripts/preprocess.py:11-14 | The nine `makedirs` succeed exactly when no file lies on any of their paths, and then add exactly the layout. Otherwise the run stops at the first failing directory, with the directories made before it. Files never change. |
| Preprocess.GroupDirPrefixes | ChestXray-Triage/scripts/preprocess.py:14 | `makedirs` of an output directory creates it and `data/processed`, nothing deeper, and nothing at `metadata.csv`. |
| Preprocess.CreatedHolds | ChestXray-Triage/scripts/preprocess.py:11-14 | After `g` calls, the first `g` output directories and `data/processed` exist. |
| Preprocess.CreatedShallow | ChestXray-Triage/scripts/preprocess.py:11-14 | The layout holds nothing deeper than an output directory, and nothing at `metadata.csv`. |
| Preprocess.FreshReady | ChestXray-Triage/scripts/preprocess.py:11-14 | On a tree with no directory inside an output directory, the layout leaves all nine output directories ready for copying. |
| Preprocess.CategoryReadyFromGroups | ChestXray-Triage/scripts/preprocess.py:11-14 | A category is ready for copying when its three output directories are. |
| Preprocess.LayoutStaysEmpty | ChestXray-Triage/scripts/preprocess.py:11-14 | Creating the layout puts nothing inside an output directory that held nothing. |
| Preprocess.LayoutMade | ChestXray-Triage/scripts/preprocess.py:11-18 | Creating the layout gives the dataset procedures the directories they need and the same raw scans, and adds no directory at `metadata.csv`. On a fresh tree every category becomes ready, and output directories that held nothing still hold nothing. |
| Preprocess.PoolsKept | ChestXray-Triage/scripts/preprocess.py:11-14 | Creating the layout does not change what the raw scans find. |
| Preprocess.RescanAfterWrite | ChestXray-Triage/scripts/preprocess.py:140 | Writing `metadata.csv` does not change the rescan it records. |
| Preprocess.WriteUntouched | ChestXray-Triage/scripts/preprocess.py:140 | The CSV write, whether it succeeds or not, changes at most a file directly in `data/processed`, and writes no path but `metadata.csv`. |
| Preprocess.KeptByWrite | ChestXray-Triage/scripts/preprocess.py:140 | Writing `metadata.csv` keeps a category's placement. |
| Preprocess.PlacedAllKept | ChestXray-Triage/scripts/preprocess.py:140 | Writing `metadata.csv` keeps all three placements. |
| Preprocess.RecordedCopy | ChestXray-Triage/scripts/preprocess.py:106-125 | A stored copy whose source name has something other than dots before its suffix has its row in the rescan. |
| Preprocess.RecordedBatch | ChestXray-Triage/scripts/preprocess.py:106-125 | After one category and split are copied, the rescan has the row of every copy whose source name has something other than dots before its suffix. |
| Preprocess.RecordedCategory | ChestXray-Triage/scripts/preprocess.py:106-125 | `RecordedBatch` for the train, val and test parts of a category. |
| Preprocess.ListedAll | ChestXray-Triage/scripts/preprocess.py:119-140 | After the copies, `metadata.csv` holds the serialised rescan, and the rescan lists every accepted copy of all three classes. |
| Preprocess.RowsAreCopies | ChestXray-Triage/scripts/preprocess.py:115-140 | When the output directories held nothing before and only the copies' destinations and `metadata.csv` were written since, every rescanned row names a copy's destination. |
| Preprocess.MetadataFrame | ChestXray-Triage/scripts/preprocess.py:17-21 | Writing `metadata.csv` after the copies, whether it succeeds or not, keeps every change inside the output directories. |
| Preprocess.CompletedByWrite | ChestXray-Triage/scripts/preprocess.py:17-21 | Writing the rescan after all three draws were copied completes the run: valid draws, all placed and listed, and only their destinations and `metadata.csv` written. When the output directories held nothing before, every row names a copy. |
| Preprocess.ProcessDatasets | ChestXray-Triage/scripts/preprocess.py:17-18 | Both dataset procedures change only the nine output directories. Every error comes from one of the two procedures. A split error means some class is short, and a short pneumonia or normal class always gives one. A split error, and any pneumonia-stage error, leaves the tuberculosis directories untouched. A tuberculosis error leaves valid pneumonia and normal draws copied. A copy error names a refused copy of a valid draw. Whatever the outcome, only the destinations of valid draws were written. On success no class is short, and all three draws are valid and placed. With ready directories, success is exactly "no class short". |
| Preprocess.WriteMetadata | ChestXray-Triage/scripts/preprocess.py:112-141 | With the layout present, `create_metadata_csv` fails exactly when a directory stands at `metadata.csv`, and then the files are unchanged. Otherwise it writes the serialised rescan there and changes nothing else. |
| Preprocess.Assemble | ChestXray-Triage/scripts/preprocess.py:17-21 | On a tree with the layout, changes happen only in the output directories. Errors, and what each leaves behind, are as for `ProcessDatasets`, plus the write error, which leaves all three draws copied. A short pneumonia or normal class always gives a split error. Given ready directories and a free `metadata.csv`, it succeeds exactly when no class is short. On success no class is short, the draws are valid, all placed and all listed, and only their destinations and `metadata.csv` were written. When the output directories held nothing before, every row names one of the copies. |
| Preprocess.PreprocessData | ChestXray-Triage/scripts/preprocess.py:7-23 | The whole run changes files only inside the ten output directories. It fails in `makedirs` exactly when a file lies on a layout path. No file then changes, and the directories made before the first failing call remain. It fails in a split only when a class is short, and in the write only when a directory stands at `metadata.csv`. A split error, and any pneumonia-stage error, leaves the tuberculosis directories untouched. A tuberculosis error leaves valid pneumonia and normal draws copied. A copy error names a refused copy of a valid draw. A short pneumonia or normal class always stops the run in `makedirs` or in a split. On a fresh tree it succeeds exactly when no class is short. A success means no class was short and leaves valid draws, all copied with their original content, and all listed in `metadata.csv`; only their destinations and `metadata.csv` were written. When the output directories held nothing before, every row of `metadata.csv` names one of the copies. |

## Left out

- The `print` calls (lines 8, 23, 26, 66, 113, 141) are console output and are not modelled.
- `random.sample` is modelled by an arbitrary sampler, one per call. The script never seeds `random`, so the three draws differ from run to run; the samplers are independent parameters for that reason.
- Selection.TrainTestSplit: the behaviour of scikit-learn's `train_test_split` is an assumption of the model, since scikit-learn is not part of this model. The test part is the first `ceil(test_size * n)` items of a seeded permutation, taken over the rationals. The train part is the rest, and an empty train part raises `ValueError`. Floating-point arithmetic is not modelled. For the sample sizes the script can produce (at most 500), `ceil(0.3 * n)` in floating point equals the rational `ceil(3n / 10)`, and `ceil(0.5 * n)` is exact.
- Selection.TrainTestSplit: the permutation for `random_state=42` is a parameter that depends only on the number of items. It is not scikit-learn's actual generator.
- Scanning.CollectImages: `os.walk` on a missing directory reports nothing and raises nothing, so the script has no error for a missing raw directory. A missing class directory shows up as a short pool, and so as a split `ValueError`.
- Scanning.CollectImages: the walk order is not modelled, so the collected list may be in any order. The `Sampler` parameter covers every outcome of the draw anyway.
- The script gives no warning when a pool is below its quota; it draws the whole pool silently, as the model does.
- The normal images of the tuberculosis dataset (lines 79-83) are scanned and then discarded (lines 88-91). The model performs that scan and drops the result.
- FileSystem.FileSystem.Copy2: when the destination is an existing directory, `shutil.copy2` copies into it. The model treats that case as a failure. It cannot arise on a fresh tree, where `FreshReady` rules out directories inside the output directories.
- FileSystem.FileSystem.Copy2: file metadata (permissions, timestamps) that `copy2` also copies is not modelled. Nor are I/O errors such as a full disk or missing permissions.
- FileSystem.FileSystem.WriteFile: the CSV text is the parameter `csv`, a function from rows to bytes. The pandas serialisation, column order and quoting are not modelled.
- Metadata.DirectoryRows: `os.listdir` order is not modelled, so rows within one directory may come in any order. Across directories the visiting order is kept.
- Metadata.DirectoryRows: `os.listdir` also lists directories. A directory with an image-like name inside an output directory would get a row, and the model keeps that behaviour.
- A source whose name is only dots before its image suffix, such as `.png`, is copied without an extension. `os.path.splitext` gives such a name no extension, so the copy is not listed in `metadata.csv`. `Layout.CopiedNameIsImage` states this, and `Recorded` promises rows only for the other copies.
- Paths are sequences of components. Absolute paths, `..`, symbolic links and the working directory are not modelled.
- The other script of the repository, `scripts/download_public_datasets.py` (the Kaggle download, the zip extraction and the `chdir`), and the web application (`app.py`, `infer.py`, `static/js/script.js`) are not part of this model.

=== FILE: copying.dfy ===
/** `copy_images(image_paths, category, split)`: copy every listed file into
    `data/processed/{split}/{category}/` under its synthesized name. */
module Copying {
  import opened Wrappers
  import opened FileSystem
  import opened Layout
  import opened Selection

  /** The files after a run of copies, and the position of the copy that
      raised, if one did (the exception ends the run; earlier copies stay). */
  datatype CopyRun = CopyRun(files: map<Path, Bytes>, failedAt: Option<nat>)

  /** The destination `copy_images` computes for every position of its list. */
  function Destinations(srcs: seq<Path>, category: string, split: string): (dsts: seq<Path>)
    ensures |dsts| == |srcs|
    ensures forall j :: 0 <= j < |srcs| ==> dsts[j] == Destination(category, split, j, srcs[j])
  {
    seq(|srcs|, j requires 0 <= j < |srcs| => Destination(category, split, j, srcs[j]))
  }

  /** A run of copies `srcs[j]` to `dsts[j]` from position `i` on, one
      `shutil.copy2` after the other, each reading the files as the previous
      copies left them. */
  function CopyFrom(files: map<Path, Bytes>, dirs: set<Path>, srcs: seq<Path>, dsts: seq<Path>, i: nat): (run: CopyRun)
    requires |srcs| == |dsts| && i <= |srcs|
    ensures run.failedAt.Some? ==> i <= run.failedAt.value < |srcs|
    decreases |srcs| - i
  {
    if i == |srcs| then CopyRun(files, None)
    else if CopyAllowed(files, dirs, srcs[i], dsts[i]) then
      CopyFrom(files[dsts[i] := files[srcs[i]]], dirs, srcs, dsts, i + 1)
    else CopyRun(files, Some(i))
  }

  /** Where a run stops: the failing position, or the end of the list. */
  function Stop(run: CopyRun, n: nat): nat {
    match run.failedAt
    case Some(k) => k
    case None => n
  }

  /** Lines 102-110 of the script. The loop keeps the specification function's
      remaining run, taken from the files as they are now, equal to the whole
      run taken from the files as they were. */
  method CopyImages(fs: FileSystem, imagePaths: seq<Path>, category: string, split: string)
    returns (failedAt: Option<nat>)
    requires fs.Valid()
    modifies fs
    ensures fs.Valid() && fs.dirs == old(fs.dirs)
    ensures CopyRun(fs.files, failedAt)
         == CopyFrom(old(fs.files), old(fs.dirs), imagePaths, Destinations(imagePaths, category, split), 0)
  {
    ghost var dsts := Destinations(imagePaths, category, split);
    var i := 0;
    while i < |imagePaths|
      invariant i <= |imagePaths|
      invariant fs.Valid() && fs.dirs == old(fs.dirs)
      invariant CopyFrom(fs.files, fs.dirs, imagePaths, dsts, i)
             == CopyFrom(old(fs.files), old(fs.dirs), imagePaths, dsts, 0)
    {
      var srcPath := imagePaths[i];
      var dstPath := Destination(category, split, i, srcPath);
      var ok := fs.Copy2(srcPath, dstPath);
      if !ok {
        return Some(i);
      }
      i := i + 1;
    }
    return None;
  }

  /** The copies that happened add their destinations to the files. */
  lemma {:induction false} CopyFromKeys(files: map<Path, Bytes>, dirs: set<Path>, srcs: seq<Path>, dsts: seq<Path>, i: nat)
    requires |srcs| == |dsts| && i <= |srcs|
    decreases |srcs| - i
    ensures var run := CopyFrom(files, dirs, srcs, dsts, i);
      run.files.Keys == files.Keys + Elements(dsts[i..Stop(run, |srcs|)])
  {
    if i < |srcs| && CopyAllowed(files, dirs, srcs[i], dsts[i]) {
      var next := files[dsts[i] := files[srcs[i]]];
      var run := CopyFrom(next, dirs, srcs, dsts, i + 1);
      assert CopyFrom(files, dirs, srcs, dsts, i) == run;
      CopyFromKeys(next, dirs, srcs, dsts, i + 1);
      var stop := Stop(run, |srcs|);
      assert dsts[i..stop] == [dsts[i]] + dsts[i + 1..stop];
      assert Elements(dsts[i..stop]) == {dsts[i]} + Elements(dsts[i + 1..stop]);
    } else {
      assert dsts[i..i] == [];
    }
  }

  /** Every path that is not the destination of a copy that happened keeps
      its content. */
  lemma {:induction false} CopyFromKept(files: map<Path, Bytes>, dirs: set<Path>, srcs: seq<Path>, dsts: seq<Path>, i: nat)
    requires |srcs| == |dsts| && i <= |srcs|
    decreases |srcs| - i
    ensures var run := CopyFrom(files, dirs, srcs, dsts, i);
      forall p :: p in files && p !in Elements(dsts[i..Stop(run, |srcs|)]) ==> p in run.files && run.files[p] == files[p]
  {
    if i < |srcs| && CopyAllowed(files, dirs, srcs[i], dsts[i]) {
      var next := files[dsts[i] := files[srcs[i]]];
      var run := CopyFrom(next, dirs, srcs, dsts, i + 1);
      assert CopyFrom(files, dirs, srcs, dsts, i) == run;
      CopyFromKept(next, dirs, srcs, dsts, i + 1);
      var stop := Stop(run, |srcs|);
      assert dsts[i..stop] == [dsts[i]] + dsts[i + 1..stop];
      forall p | p in files && p !in Elements(dsts[i..stop]) ensures p in run.files && run.files[p] == files[p] {
        assert p != dsts[i] && p !in Elements(dsts[i + 1..stop]);
      }
    }
  }

  /** Only the destinations of the copies that happened are written: they are
      added to (or overwrite) the files, and every other path keeps its
      presence and its content. */
  lemma CopyFromFrame(files: map<Path, Bytes>, dirs: set<Path>, srcs: seq<Path>, dsts: seq<Path>, i: nat)
    requires |srcs| == |dsts| && i <= |srcs|
    ensures var run := CopyFrom(files, dirs, srcs, dsts, i);
      var stop := Stop(run, |srcs|);
      i <= stop <= |srcs| &&
      run.files.Keys == files.Keys + Elements(dsts[i..stop]) &&
      forall p :: p in files && p !in Elements(dsts[i..stop]) ==> run.files[p] == files[p]
  {
    CopyFromKeys(files, dirs, srcs, dsts, i);
    CopyFromKept(files, dirs, srcs, dsts, i);
  }

  /** The run stops at the first position, from `i` on, whose copy is not
      allowed in the initial state, when no source is a destination. */
  lemma {:induction false} CopyFromStops(files: map<Path, Bytes>, dirs: set<Path>, srcs: seq<Path>, dsts: seq<Path>, i: nat)
    requires |srcs| == |dsts| && i <= |srcs|
    requires forall j, k :: 0 <= j < |srcs| && 0 <= k < |dsts| ==> srcs[j] != dsts[k]
    decreases |srcs| - i
    ensures var run := CopyFrom(files, dirs, srcs, dsts, i);
      var stop := Stop(run, |srcs|);
      && (forall j :: i <= j < stop ==> CopyAllowed(files, dirs, srcs[j], dsts[j]))
      && (run.failedAt.Some? ==> !CopyAllowed(files, dirs, srcs[stop], dsts[stop]))
  {
    if i < |srcs| && CopyAllowed(files, dirs, srcs[i], dsts[i]) {
      var next := files[dsts[i] := files[srcs[i]]];
      var run := CopyFrom(next, dirs, srcs, dsts, i + 1);
      assert CopyFrom(files, dirs, srcs, dsts, i) == run;
      CopyFromStops(next, dirs, srcs, dsts, i + 1);
      forall j | i < j < |srcs| ensures CopyAllowed(next, dirs, srcs[j], dsts[j]) <==> CopyAllowed(files, dirs, srcs[j], dsts[j]) {
        assert srcs[j] != dsts[i];
      }
    }
  }

  /** A run that raised left the files as they were when the failing copy
      was attempted: that copy is not allowed on the run's files. */
  lemma {:induction false} CopyFromFails(files: map<Path, Bytes>, dirs: set<Path>, srcs: seq<Path>, dsts: seq<Path>, i: nat)
    requires |srcs| == |dsts| && i <= |srcs|
    decreases |srcs| - i
    ensures var run := CopyFrom(files, dirs, srcs, dsts, i);
      run.failedAt.Some? ==> !CopyAllowed(run.files, dirs, srcs[run.failedAt.value], dsts[run.failedAt.value])
  {
    if i < |srcs| && CopyAllowed(files, dirs, srcs[i], dsts[i]) {
      var next := files[dsts[i] := files[srcs[i]]];
      assert CopyFrom(files, dirs, srcs, dsts, i) == CopyFrom(next, dirs, srcs, dsts, i + 1);
      CopyFromFails(next, dirs, srcs, dsts, i + 1);
    }
  }

  /** When no source is a destination and the destinations are distinct, every
      destination written holds its source's content, whether or not a file of
      that name existed before. */
  lemma {:induction false} CopyFromStored(files: map<Path, Bytes>, dirs: set<Path>, srcs: seq<Path>, dsts: seq<Path>, i: nat)
    requires |srcs| == |dsts| && i <= |srcs|
    requires Distinct(dsts)
    requires forall j, k :: 0 <= j < |srcs| && 0 <= k < |dsts| ==> srcs[j] != dsts[k]
    decreases |srcs| - i
    ensures var run := CopyFrom(files, dirs, srcs, dsts, i);
      forall j :: i <= j < Stop(run, |srcs|) ==>
        srcs[j] in files && dsts[j] in run.files && run.files[dsts[j]] == files[srcs[j]]
  {
    if i < |srcs| && CopyAllowed(files, dirs, srcs[i], dsts[i]) {
      var next := files[dsts[i] := files[srcs[i]]];
      var run := CopyFrom(next, dirs, srcs, dsts, i + 1);
      assert CopyFrom(files, dirs, srcs, dsts, i) == run;
      var stop := Stop(run, |srcs|);
      CopyFromStored(next, dirs, srcs, dsts, i + 1);
      CopyFromKept(next, dirs, srcs, dsts, i + 1);
      assert dsts[i] !in Elements(dsts[i + 1..stop]);
      forall j | i < j < stop ensures srcs[j] in files && next[srcs[j]] == files[srcs[j]] {
        assert srcs[j] != dsts[i];
      }
    }
  }

  /** When no source is a destination and the destinations are distinct, the
      run fails exactly at the first position whose copy is not allowed in the
      initial state, and afterwards every destination written holds its
      source's content, whether or not a file of that name existed before. */
  lemma CopyFromContents(files: map<Path, Bytes>, dirs: set<Path>, srcs: seq<Path>, dsts: seq<Path>, i: nat)
    requires |srcs| == |dsts| && i <= |srcs|
    requires Distinct(dsts)
    requires forall j, k :: 0 <= j < |srcs| && 0 <= k < |dsts| ==> srcs[j] != dsts[k]
    ensures var run := CopyFrom(files, dirs, srcs, dsts, i);
      var stop := Stop(run, |srcs|);
      && (forall j :: i <= j < stop ==> CopyAllowed(files, dirs, srcs[j], dsts[j]))
      && (run.failedAt.Some? ==> !CopyAllowed(files, dirs, srcs[stop], dsts[stop]))
      && (forall j :: i <= j < stop ==>
            srcs[j] in files && dsts[j] in run.files && run.files[dsts[j]] == files[srcs[j]])
  {
    CopyFromStops(files, dirs, srcs, dsts, i);
    CopyFromStored(files, dirs, srcs, dsts, i);
  }

  /** No source is a file directly in the output directory being written. */
  predicate SourcesOutside(srcs: seq<Path>, dir: Path) {
    forall j :: 0 <= j < |srcs| ==> srcs[j] == [] || Parent(srcs[j]) != dir
  }

  /** The destinations of one `copy_images` call are distinct, lie in the
      output directory, and so differ from sources kept outside it. */
  lemma DestinationsFacts(srcs: seq<Path>, category: string, split: string)
    requires SourcesOutside(srcs, OutputDir(split, category))
    ensures var dsts := Destinations(srcs, category, split);
      Distinct(dsts) &&
      (forall j :: 0 <= j < |dsts| ==> dsts[j] != [] && Parent(dsts[j]) == OutputDir(split, category)) &&
      (forall j, k :: 0 <= j < |srcs| && 0 <= k < |dsts| ==> srcs[j] != dsts[k])
  {
    var dsts := Destinations(srcs, category, split);
    forall j, k | 0 <= j < k < |dsts| ensures dsts[j] != dsts[k] {
      DestinationsDistinct(category, split, j, k, srcs[j], srcs[k]);
    }
    forall j | 0 <= j < |dsts| ensures dsts[j] != [] && Parent(dsts[j]) == OutputDir(split, category) {
      assert dsts[j] == OutputDir(split, category) + [FileName(category, split, j, srcs[j])];
    }
  }
}

=== FILE: datasets.dfy ===
/** `process_pneumonia_data` and `process_tuberculosis_data`: scan a raw
    dataset, draw a per-class quota, split it three ways and copy each part
    into the processed layout. */
module Datasets {
  import opened Wrappers
  import opened FileSystem
  import opened Naming
  import opened Selection
  import opened Layout
  import opened Copying
  import opened Scanning
  import opened Placement

  const PneumoniaRoot: Path := ["data", "raw", "pneumonia", "chest_xray"]
  const PneumoniaImagesDir: Path := PneumoniaRoot + ["train", "PNEUMONIA"]
  const PneumoniaNormalDir: Path := PneumoniaRoot + ["train", "NORMAL"]

  const TbRoot: Path := ["data", "raw", "tuberculosis", "TB_Chest_Radiography_Database"]
  const TbImagesDir: Path := TbRoot + ["Tuberculosis"]
  const TbNormalDir: Path := TbRoot + ["Normal"]

  const PneumoniaQuota: nat := 500
  const NormalQuota: nat := 200
  const TbQuota: nat := 500

  /** What can end a run of the pipeline early, with the exception it stands for. */
  datatype PipelineError =
    | MakeDirsFailed(dir: Path)                              // os.makedirs: a file is in the way
    | SplitFailed(category: string, error: SplitError)       // train_test_split: ValueError
    | CopyFailed(category: string, split: string, index: nat) // shutil.copy2 at that position
    | WriteFailed(path: Path)                                // DataFrame.to_csv

  /** The error was raised while `process_pneumonia_data` ran. */
  predicate FromPneumonia(e: PipelineError) {
    (e.SplitFailed? || e.CopyFailed?) && (e.category == "pneumonia" || e.category == "normal")
  }

  /** The error was raised while `process_tuberculosis_data` ran. */
  predicate FromTuberculosis(e: PipelineError) {
    (e.SplitFailed? || e.CopyFailed?) && e.category == "tuberculosis"
  }

  /** `top` lies under `data/raw`. */
  predicate RawDir(top: Path) {
    |top| >= 2 && top[..2] == ["data", "raw"]
  }

  /** The three scanned directories lie under `data/raw`. */
  lemma RawDirs()
    ensures RawDir(PneumoniaImagesDir) && RawDir(PneumoniaNormalDir) && RawDir(TbImagesDir)
  {
  }

  /** The files the scan of `top` keeps: every file at any depth below it
      whose name passes the image filter, none when `top` is not a directory. */
  ghost function SourceImages(files: map<Path, Bytes>, dirs: set<Path>, top: Path): set<Path> {
    if top in dirs then set p | p in files && Below(p, top) && IsImageName(BaseName(p)) else {}
  }

  /** Fewer than four images would be drawn, too few for the three-way split. */
  predicate Short(pool: set<Path>, quota: nat) {
    Min(quota, |pool|) < 4
  }

  /** `a` is what drawing `quota` images from `pool` and splitting them can
      give: no image twice, every image from the pool, and the split sizes of
      `min(quota, |pool|)`. */
  ghost predicate Drawn(pool: set<Path>, a: Assignment<Path>, quota: nat) {
    && Distinct(a.All())
    && Elements(a.train) + Elements(a.val) + Elements(a.test) <= pool
    && (|a.train|, |a.val|, |a.test|) == SplitSizes(Min(quota, |pool|))
  }

  function CategoryDirs(category: string): set<Path> {
    {OutputDir("train", category), OutputDir("val", category), OutputDir("test", category)}
  }

  lemma CategoryDirsProcessed(category: string)
    ensures forall d :: d in CategoryDirs(category) ==> InProcessed(d)
  {
  }

  /** Different categories write into different directories. */
  lemma CategoryDirsDisjoint(c1: string, c2: string)
    requires c1 != c2
    ensures CategoryDirs(c1) !! CategoryDirs(c2)
  {
    forall d | d in CategoryDirs(c1) ensures d !in CategoryDirs(c2) {
      assert d[3] == c1;
    }
  }

  /** Every image of `a` is stored, with its content in `orig`, at the
      destination `copy_images` gives it. */
  predicate Placed(files: map<Path, Bytes>, orig: map<Path, Bytes>, a: Assignment<Path>, category: string) {
    && Stored(files, orig, a.train, category, "train")
    && Stored(files, orig, a.val, category, "val")
    && Stored(files, orig, a.test, category, "test")
  }

  /** The part of `a` that `copy_images` receives for `split`. */
  function Part(a: Assignment<Path>, split: string): seq<Path> {
    if split == "train" then a.train else if split == "val" then a.val else a.test
  }

  /** `e` reports a copy of `a` for `category` that `shutil.copy2` refuses on
      the tree `files`, `dirs`: position `index` of the part for `split`. */
  predicate FailedCopy(files: map<Path, Bytes>, dirs: set<Path>, a: Assignment<Path>, category: string, e: PipelineError) {
    && e.CopyFailed? && e.category == category && e.split in Splits
    && e.index < |Part(a, e.split)|
    && var src := Part(a, e.split)[e.index];
       !CopyAllowed(files, dirs, src, Destination(category, e.split, e.index, src))
  }

  /** The destinations `copy_images` gives the three parts of `a`. */
  function Targets(a: Assignment<Path>, category: string): set<Path> {
    Elements(Destinations(a.train, category, "train")) +
    Elements(Destinations(a.val, category, "val")) +
    Elements(Destinations(a.test, category, "test"))
  }

  /** `process_pneumonia_data` raised at a copy of the draws `pneumonia` and
      `normal` from their pools: `e` reports a refused copy, only their
      destinations were written since `orig`, and a refused normal copy comes
      after every pneumonia image was placed. */
  ghost predicate PneumoniaCopyFailedAt(files: map<Path, Bytes>, dirs: set<Path>, orig: map<Path, Bytes>,
                                        pneumoniaPool: set<Path>, normalPool: set<Path>, e: PipelineError,
                                        pneumonia: Assignment<Path>, normal: Assignment<Path>) {
    && Drawn(pneumoniaPool, pneumonia, PneumoniaQuota) && Drawn(normalPool, normal, NormalQuota)
    && Written(orig, files, Targets(pneumonia, "pneumonia") + Targets(normal, "normal"))
    && (|| FailedCopy(files, dirs, pneumonia, "pneumonia", e)
        || (Placed(files, orig, pneumonia, "pneumonia") && FailedCopy(files, dirs, normal, "normal", e)))
  }

  /** `process_pneumonia_data` raised at a copy of some valid draws. */
  ghost predicate PneumoniaCopyFailed(files: map<Path, Bytes>, dirs: set<Path>, orig: map<Path, Bytes>,
                                      pneumoniaPool: set<Path>, normalPool: set<Path>, e: PipelineError) {
    exists pneumonia, normal :: PneumoniaCopyFailedAt(files, dirs, orig, pneumoniaPool, normalPool, e, pneumonia, normal)
  }

  /** `process_tuberculosis_data` raised at a copy of the draw `tb` from
      `pool`: `e` reports a refused copy, and only the draw's destinations
      were written since `orig`. */
  ghost predicate TbCopyFailedAt(files: map<Path, Bytes>, dirs: set<Path>, orig: map<Path, Bytes>,
                                 pool: set<Path>, e: PipelineError, tb: Assignment<Path>) {
    && Drawn(pool, tb, TbQuota)
    && Written(orig, files, Targets(tb, "tuberculosis"))
    && FailedCopy(files, dirs, tb, "tuberculosis", e)
  }

  /** `process_tuberculosis_data` raised at a copy of some valid draw. */
  ghost predicate TbCopyFailed(files: map<Path, Bytes>, dirs: set<Path>, orig: map<Path, Bytes>,
                               pool: set<Path>, e: PipelineError) {
    exists tb :: TbCopyFailedAt(files, dirs, orig, pool, e, tb)
  }

  /** The three output directories of `category` exist and hold no directory. */
  ghost predicate CategoryReady(dirs: set<Path>, category: string) {
    && Ready(dirs, OutputDir("train", category))
    && Ready(dirs, OutputDir("val", category))
    && Ready(dirs, OutputDir("test", category))
  }

  /** A scan's result holds exactly the source images of its directory. */
  lemma ScanPool(fs: FileSystem, top: Path, images: seq<Path>)
    requires forall p :: p in images <==>
      top in fs.dirs && p in fs.files && Below(p, top) && IsImageName(BaseName(p))
    ensures Elements(images) == SourceImages(fs.files, fs.dirs, top)
  {
  }

  /** Lines 46-54 and 86-95: for every sampler and every shuffle, the split
      of the drawn sample succeeds exactly when at least four images are
      drawn, and its result is then a valid draw from the scanned pool. */
  lemma SampleAndSplit(pool: set<Path>, images: seq<Path>, quota: nat, draw: Sampler, shuffle: Shuffle)
    requires ValidSampler(draw) && ValidShuffle(shuffle)
    requires Distinct(images) && Elements(images) == pool
    ensures var split := ThreeWaySplit(SampleQuota(images, quota, draw), shuffle);
      (split.Success? <==> !Short(pool, quota)) &&
      (split.Success? ==> Drawn(pool, split.value, quota))
  {
    DistinctCard(images);
    var sample := SampleQuota(images, quota, draw);
    ThreeWaySizes(sample, shuffle);
    if ThreeWaySplit(sample, shuffle).Success? {
      ThreeWayPartition(sample, shuffle);
    }
  }

  /** Drawn images are files outside `data/processed`, so copies into the
      layout never overwrite one. */
  lemma RawSources(files: map<Path, Bytes>, dirs: set<Path>, top: Path, srcs: seq<Path>)
    requires RawDir(top)
    requires Elements(srcs) <= SourceImages(files, dirs, top)
    ensures Sources(files, srcs)
  {
    forall j | 0 <= j < |srcs|
      ensures srcs[j] in files && srcs[j] != [] && !InProcessed(Parent(srcs[j]))
    {
      var p := srcs[j];
      assert p in Elements(srcs);
      assert p[..|top|] == top;
      assert Parent(p)[..2] == p[..2] == top[..2];
    }
  }

  lemma DrawnSources(files: map<Path, Bytes>, dirs: set<Path>, top: Path, a: Assignment<Path>, quota: nat)
    requires RawDir(top) && Drawn(SourceImages(files, dirs, top), a, quota)
    ensures Sources(files, a.train) && Sources(files, a.val) && Sources(files, a.test)
  {
    RawSources(files, dirs, top, a.train);
    RawSources(files, dirs, top, a.val);
    RawSources(files, dirs, top, a.test);
  }

  /** Copies into `data/processed` do not change what a scan of a raw
      directory finds. */
  lemma SourceImagesKept(files: map<Path, Bytes>, after: map<Path, Bytes>, dirs: set<Path>, dirsAfter: set<Path>,
                         out: set<Path>, top: Path)
    requires Untouched(files, after, out) && (forall d :: d in out ==> InProcessed(d))
    requires RawDir(top) && (top in dirs <==> top in dirsAfter)
    ensures SourceImages(after, dirsAfter, top) == SourceImages(files, dirs, top)
  {
    if top in dirs {
      forall p | p in after && Below(p, top) ensures p in files {
        assert p[..|top|] == top;
        assert Parent(p)[..2] == p[..2] == top[..2];
      }
    }
  }

  /** Placement shown against an intermediate state holds against the
      original one when the sources were not changed in between. */
  lemma PlacedRebase(files: map<Path, Bytes>, mid: map<Path, Bytes>, orig: map<Path, Bytes>, out: set<Path>,
                     a: Assignment<Path>, category: string)
    requires Placed(files, mid, a, category)
    requires Untouched(orig, mid, out) && (forall d :: d in out ==> InProcessed(d))
    requires Sources(orig, a.train) && Sources(orig, a.val) && Sources(orig, a.test)
    ensures Placed(files, orig, a, category)
  {
    StoredRebase(files, mid, orig, out, a.train, category, "train");
    StoredRebase(files, mid, orig, out, a.val, category, "val");
    StoredRebase(files, mid, orig, out, a.test, category, "test");
  }

  /** A later batch of copies into other directories keeps a placement. */
  lemma PlacedKept(before: map<Path, Bytes>, after: map<Path, Bytes>, out: set<Path>,
                   orig: map<Path, Bytes>, a: Assignment<Path>, category: string)
    requires Placed(before, orig, a, category)
    requires Untouched(before, after, out) && out !! CategoryDirs(category)
    ensures Placed(after, orig, a, category)
  {
    StoredKept(before, after, out, orig, a.train, category, "train");
    StoredKept(before, after, out, orig, a.val, category, "val");
    StoredKept(before, after, out, orig, a.test, category, "test");
  }

  /** One batch of `copy_images`, starting from `start`: the run changes at
      most `dir`, and stores its sources against `start` when it completes. */
  lemma Batch(start: map<Path, Bytes>, dirs: set<Path>, srcs: seq<Path>, category: string, split: string, run: CopyRun)
    requires Sources(start, srcs)
    requires run == CopyFrom(start, dirs, srcs, Destinations(srcs, category, split), 0)
    ensures Untouched(start, run.files, {OutputDir(split, category)})
    ensures run.failedAt.None? ==> Stored(run.files, start, srcs, category, split)
    ensures Ready(dirs, OutputDir(split, category)) ==> run.failedAt.None?
    ensures Written(start, run.files, Elements(Destinations(srcs, category, split)))
  {
    UntouchedRefl(start);
    CopyStep(start, start, dirs, {}, srcs, category, split, run);
  }

  /** Lines 57-59, 61-63 and 98-100: the three `copy_images` calls of one
      category, train, val and test, stopping at the first copy that raises. */
  method CopyAssignment(fs: FileSystem, a: Assignment<Path>, category: string) returns (err: Option<PipelineError>)
    requires fs.Valid()
    requires Sources(fs.files, a.train) && Sources(fs.files, a.val) && Sources(fs.files, a.test)
    modifies fs
    ensures fs.Valid() && fs.dirs == old(fs.dirs)
    ensures Untouched(old(fs.files), fs.files, CategoryDirs(category))
    ensures err.None? ==> Placed(fs.files, old(fs.files), a, category)
    ensures err.Some? ==> FailedCopy(fs.files, fs.dirs, a, category, err.value)
    ensures Written(old(fs.files), fs.files, Targets(a, category))
    ensures CategoryReady(fs.dirs, category) ==> err.None?
  {
    ghost var f0 := fs.files;
    var train, val, test := OutputDir("train", category), OutputDir("val", category), OutputDir("test", category);
    assert InProcessed(train) && InProcessed(val) && InProcessed(test);
    ghost var trainTargets := Elements(Destinations(a.train, category, "train"));
    ghost var valTargets := Elements(Destinations(a.val, category, "val"));
    ghost var testTargets := Elements(Destinations(a.test, category, "test"));

    var failed := CopyImages(fs, a.train, category, "train");
    Batch(f0, fs.dirs, a.train, category, "train", CopyRun(fs.files, failed));
    UntouchedWiden(f0, fs.files, {train}, CategoryDirs(category));
    WrittenWiden(f0, fs.files, trainTargets, Targets(a, category));
    if failed.Some? {
      CopyFromFails(f0, fs.dirs, a.train, Destinations(a.train, category, "train"), 0);
      return Some(CopyFailed(category, "train", failed.value));
    }
    ghost var f1 := fs.files;

    SourcesKept(f0, f1, {train}, a.val);
    failed := CopyImages(fs, a.val, category, "val");
    Batch(f1, fs.dirs, a.val, category, "val", CopyRun(fs.files, failed));
    UntouchedTrans(f0, f1, fs.files, {train}, {val});
    UntouchedWiden(f0, fs.files, {train} + {val}, CategoryDirs(category));
    WrittenTrans(f0, f1, fs.files, trainTargets, valTargets);
    WrittenWiden(f0, fs.files, trainTargets + valTargets, Targets(a, category));
    if failed.Some? {
      CopyFromFails(f1, fs.dirs, a.val, Destinations(a.val, category, "val"), 0);
      return Some(CopyFailed(category, "val", failed.value));
    }
    ghost var f2 := fs.files;
    StoredKept(f1, f2, {val}, f0, a.train, category, "train");
    StoredRebase(f2, f1, f0, {train}, a.val, category, "val");

    SourcesKept(f0, f2, {train} + {val}, a.test);
    failed := CopyImages(fs, a.test, category, "test");
    Batch(f2, fs.dirs, a.test, category, "test", CopyRun(fs.files, failed));
    UntouchedTrans(f0, f2, fs.files, {train} + {val}, {test});
    assert {train} + {val} + {test} == CategoryDirs(category);
    WrittenTrans(f0, f2, fs.files, trainTargets + valTargets, testTargets);
    if failed.Some? {
      CopyFromFails(f2, fs.dirs, a.test, Destinations(a.test, category, "test"), 0);
      return Some(CopyFailed(category, "test", failed.value));
    }
    StoredKept(f2, fs.files, {test}, f0, a.train, category, "train");
    StoredKept(f2, fs.files, {test}, f0, a.val, category, "val");
    StoredRebase(fs.files, f2, f0, {train} + {val}, a.test, category, "test");
    return None;
  }

  /** Lines 57-63: the pneumonia parts, then the normal parts. */
  method CopyBoth(fs: FileSystem, pneumonia: Assignment<Path>, normal: Assignment<Path>) returns (err: Option<PipelineError>)
    requires fs.Valid()
    requires Sources(fs.files, pneumonia.train) && Sources(fs.files, pneumonia.val) && Sources(fs.files, pneumonia.test)
    requires Sources(fs.files, normal.train) && Sources(fs.files, normal.val) && Sources(fs.files, normal.test)
    modifies fs
    ensures fs.Valid() && fs.dirs == old(fs.dirs)
    ensures Untouched(old(fs.files), fs.files, CategoryDirs("pneumonia") + CategoryDirs("normal"))
    ensures err.None? ==>
      Placed(fs.files, old(fs.files), pneumonia, "pneumonia") && Placed(fs.files, old(fs.files), normal, "normal")
    ensures err.Some? ==>
      || FailedCopy(fs.files, fs.dirs, pneumonia, "pneumonia", err.value)
      || (Placed(fs.files, old(fs.files), pneumonia, "pneumonia") && FailedCopy(fs.files, fs.dirs, normal, "normal", err.value))
    ensures Written(old(fs.files), fs.files, Targets(pneumonia, "pneumonia") + Targets(normal, "normal"))
    ensures CategoryReady(fs.dirs, "pneumonia") && CategoryReady(fs.dirs, "normal") ==> err.None?
  {
    ghost var f0 := fs.files;
    err := CopyAssignment(fs, pneumonia, "pneumonia");
    UntouchedWiden(f0, fs.files, CategoryDirs("pneumonia"), CategoryDirs("pneumonia") + CategoryDirs("normal"));
    WrittenWiden(f0, fs.files, Targets(pneumonia, "pneumonia"), Targets(pneumonia, "pneumonia") + Targets(normal, "normal"));
    if err.Some? {
      return;
    }
    ghost var f1 := fs.files;
    assert forall d :: d in CategoryDirs("pneumonia") ==> InProcessed(d);
    SourcesKept(f0, f1, CategoryDirs("pneumonia"), normal.train);
    SourcesKept(f0, f1, CategoryDirs("pneumonia"), normal.val);
    SourcesKept(f0, f1, CategoryDirs("pneumonia"), normal.test);
    err := CopyAssignment(fs, normal, "normal");
    UntouchedTrans(f0, f1, fs.files, CategoryDirs("pneumonia"), CategoryDirs("normal"));
    WrittenTrans(f0, f1, fs.files, Targets(pneumonia, "pneumonia"), Targets(normal, "normal"));
    CategoryDirsDisjoint("normal", "pneumonia");
    PlacedKept(f1, fs.files, CategoryDirs("normal"), f0, pneumonia, "pneumonia");
    if err.Some? {
      return;
    }
    PlacedRebase(fs.files, f1, f0, CategoryDirs("pneumonia"), normal, "normal");
  }

  /** Lines 31-54: scan both classes of the pneumonia dataset, draw up to 500
      pneumonia and up to 200 normal images, and split both samples. Nothing
      is written yet, so a failing split leaves the tree as it was. */
  method DrawPneumonia(fs: FileSystem, pneumoniaDraw: Sampler, normalDraw: Sampler, shuffle: Shuffle)
    returns (r: Result<(Assignment<Path>, Assignment<Path>), PipelineError>)
    requires ValidSampler(pneumoniaDraw) && ValidSampler(normalDraw) && ValidShuffle(shuffle)
    ensures var pneumonia := SourceImages(fs.files, fs.dirs, PneumoniaImagesDir);
      var normal := SourceImages(fs.files, fs.dirs, PneumoniaNormalDir);
      && (r.Failure? <==> Short(pneumonia, PneumoniaQuota) || Short(normal, NormalQuota))
      && (r.Failure? ==> r.error.SplitFailed? && FromPneumonia(r.error))
      && (r.Failure? ==> (r.error.category == "pneumonia" <==> Short(pneumonia, PneumoniaQuota)))
      && (r.Success? ==> Drawn(pneumonia, r.value.0, PneumoniaQuota) && Drawn(normal, r.value.1, NormalQuota))
  {
    var pneumoniaImages := CollectImages(fs, PneumoniaImagesDir);
    var normalImages := CollectImages(fs, PneumoniaNormalDir);
    ghost var pneumoniaPool := SourceImages(fs.files, fs.dirs, PneumoniaImagesDir);
    ghost var normalPool := SourceImages(fs.files, fs.dirs, PneumoniaNormalDir);
    ScanPool(fs, PneumoniaImagesDir, pneumoniaImages);
    ScanPool(fs, PneumoniaNormalDir, normalImages);

    var sampledPneumonia := SampleQuota(pneumoniaImages, PneumoniaQuota, pneumoniaDraw);
    var sampledNormal := SampleQuota(normalImages, NormalQuota, normalDraw);
    SampleAndSplit(pneumoniaPool, pneumoniaImages, PneumoniaQuota, pneumoniaDraw, shuffle);
    SampleAndSplit(normalPool, normalImages, NormalQuota, normalDraw, shuffle);

    var pneumoniaSplit := ThreeWaySplit(sampledPneumonia, shuffle);
    if pneumoniaSplit.Failure? {
      return Failure(SplitFailed("pneumonia", pneumoniaSplit.error));
    }
    var normalSplit := ThreeWaySplit(sampledNormal, shuffle);
    if normalSplit.Failure? {
      return Failure(SplitFailed("normal", normalSplit.error));
    }
    r := Success((pneumoniaSplit.value, normalSplit.value));
  }

  /** Lines 25-63, `process_pneumonia_data`: draw and split, then copy the
      pneumonia parts and the normal parts. */
  method ProcessPneumonia(fs: FileSystem, pneumoniaDraw: Sampler, normalDraw: Sampler, shuffle: Shuffle)
    returns (r: Result<(Assignment<Path>, Assignment<Path>), PipelineError>)
    requires fs.Valid() && ValidSampler(pneumoniaDraw) && ValidSampler(normalDraw) && ValidShuffle(shuffle)
    modifies fs
    ensures fs.Valid() && fs.dirs == old(fs.dirs)
    ensures Untouched(old(fs.files), fs.files, CategoryDirs("pneumonia") + CategoryDirs("normal"))
    ensures var pneumonia := SourceImages(old(fs.files), old(fs.dirs), PneumoniaImagesDir);
      var normal := SourceImages(old(fs.files), old(fs.dirs), PneumoniaNormalDir);
      && ((r.Failure? && r.error.SplitFailed?) <==> Short(pneumonia, PneumoniaQuota) || Short(normal, NormalQuota))
      && (r.Failure? && r.error.SplitFailed? ==> fs.files == old(fs.files))
      && (r.Failure? && r.error.SplitFailed? ==> (r.error.category == "pneumonia" <==> Short(pneumonia, PneumoniaQuota)))
      && (r.Failure? ==> FromPneumonia(r.error))
      && (r.Failure? && r.error.CopyFailed? ==>
            PneumoniaCopyFailed(fs.files, fs.dirs, old(fs.files), pneumonia, normal, r.error))
      && (r.Success? ==>
            Drawn(pneumonia, r.value.0, PneumoniaQuota) && Drawn(normal, r.value.1, NormalQuota) &&
            Placed(fs.files, old(fs.files), r.value.0, "pneumonia") &&
            Placed(fs.files, old(fs.files), r.value.1, "normal") &&
            Written(old(fs.files), fs.files, Targets(r.value.0, "pneumonia") + Targets(r.value.1, "normal")))
    ensures CategoryReady(fs.dirs, "pneumonia") && CategoryReady(fs.dirs, "normal") ==>
      (r.Failure? ==> r.error.SplitFailed?)
  {
    var drawn := DrawPneumonia(fs, pneumoniaDraw, normalDraw, shuffle);
    if drawn.Failure? {
      return Failure(drawn.error);
    }
    var (pneumonia, normal) := drawn.value;
    RawDirs();
    DrawnSources(fs.files, fs.dirs, PneumoniaImagesDir, pneumonia, PneumoniaQuota);
    DrawnSources(fs.files, fs.dirs, PneumoniaNormalDir, normal, NormalQuota);
    ghost var pneumoniaPool := SourceImages(fs.files, fs.dirs, PneumoniaImagesDir);
    ghost var normalPool := SourceImages(fs.files, fs.dirs, PneumoniaNormalDir);
    ghost var f0 := fs.files;
    var err := CopyBoth(fs, pneumonia, normal);
    if err.Some? {
      assert PneumoniaCopyFailedAt(fs.files, fs.dirs, f0, pneumoniaPool, normalPool, err.value, pneumonia, normal);
      return Failure(err.value);
    }
    r := Success((pneumonia, normal));
  }

  /** Lines 71-95: scan both classes of the tuberculosis dataset, draw up to
      500 tuberculosis images and split them. The normal images are scanned
      and then left unused (lines 88-91). */
  method DrawTuberculosis(fs: FileSystem, tbDraw: Sampler, shuffle: Shuffle)
    returns (r: Result<Assignment<Path>, PipelineError>)
    requires ValidSampler(tbDraw) && ValidShuffle(shuffle)
    ensures var tb := SourceImages(fs.files, fs.dirs, TbImagesDir);
      && (r.Failure? <==> Short(tb, TbQuota))
      && (r.Failure? ==> r.error.SplitFailed? && FromTuberculosis(r.error))
      && (r.Success? ==> Drawn(tb, r.value, TbQuota))
  {
    var tbImages := CollectImages(fs, TbImagesDir);
    var normalImages := CollectImages(fs, TbNormalDir);
    ghost var tbPool := SourceImages(fs.files, fs.dirs, TbImagesDir);
    ScanPool(fs, TbImagesDir, tbImages);

    var sampledTb := SampleQuota(tbImages, TbQuota, tbDraw);
    SampleAndSplit(tbPool, tbImages, TbQuota, tbDraw, shuffle);
    var tbSplit := ThreeWaySplit(sampledTb, shuffle);
    if tbSplit.Failure? {
      return Failure(SplitFailed("tuberculosis", tbSplit.error));
    }
    r := Success(tbSplit.value);
  }

  /** Lines 65-100, `process_tuberculosis_data`: draw and split, then copy the
      three parts. */
  method ProcessTuberculosis(fs: FileSystem, tbDraw: Sampler, shuffle: Shuffle)
    returns (r: Result<Assignment<Path>, PipelineError>)
    requires fs.Valid() && ValidSampler(tbDraw) && ValidShuffle(shuffle)
    modifies fs
    ensures fs.Valid() && fs.dirs == old(fs.dirs)
    ensures Untouched(old(fs.files), fs.files, CategoryDirs("tuberculosis"))
    ensures var tb := SourceImages(old(fs.files), old(fs.dirs), TbImagesDir);
      && ((r.Failure? && r.error.SplitFailed?) <==> Short(tb, TbQuota))
      && (r.Failure? && r.error.SplitFailed? ==> fs.files == old(fs.files))
      && (r.Failure? ==> FromTuberculosis(r.error))
      && (r.Failure? && r.error.CopyFailed? ==> TbCopyFailed(fs.files, fs.dirs, old(fs.files), tb, r.error))
      && (r.Success? ==>
            Drawn(tb, r.value, TbQuota) && Placed(fs.files, old(fs.files), r.value, "tuberculosis") &&
            Written(old(fs.files), fs.files, Targets(r.value, "tuberculosis")))
    ensures CategoryReady(fs.dirs, "tuberculosis") ==> (r.Failure? ==> r.error.SplitFailed?)
  {
    var drawn := DrawTuberculosis(fs, tbDraw, shuffle);
    if drawn.Failure? {
      return Failure(drawn.error);
    }
    var tb := drawn.value;
    RawDirs();
    DrawnSources(fs.files, fs.dirs, TbImagesDir, tb, TbQuota);
    ghost var tbPool := SourceImages(fs.files, fs.dirs, TbImagesDir);
    ghost var f0 := fs.files;
    var err := CopyAssignment(fs, tb, "tuberculosis");
    if err.Some? {
      assert TbCopyFailedAt(fs.files, fs.dirs, f0, tbPool, err.value, tb);
      return Failure(err.value);
    }
    r := Success(tb);
  }
}

=== FILE: filesystem.dfy ===
/** The part of the operating system the script touches: a tree of directories
    and files, and the library calls `os.makedirs`, `shutil.copy2`,
    `os.listdir` and `os.walk` on it. */
module FileSystem {

  type Name = string

  /** A path as the sequence of its components, relative to the working
      directory; `os.path.join` is concatenation. */
  type Path = seq<Name>

  type Bytes = seq<bv8>

  function Parent(p: Path): Path
    requires p != []
  {
    p[..|p| - 1]
  }

  /** The last component, the name `os.walk` reports a file under. */
  function BaseName(p: Path): Name {
    if p == [] then "" else p[|p| - 1]
  }

  /** `p` lies somewhere below the directory `top`. */
  predicate Below(p: Path, top: Path) {
    |top| < |p| && p[..|top|] == top
  }

  /** The entry's parent exists: the working directory for a one-component
      path, a directory otherwise. */
  predicate ParentExists(dirs: set<Path>, p: Path) {
    p != [] && (|p| == 1 || Parent(p) in dirs)
  }

  /** Files and directories form a tree: no path is both, and the parent of
      every entry is a directory. */
  predicate IsTree(files: map<Path, Bytes>, dirs: set<Path>) {
    && files.Keys !! dirs
    && (forall p :: p in files ==> ParentExists(dirs, p))
    && (forall d {:trigger ParentExists(dirs, d)} :: d in dirs ==> ParentExists(dirs, d))
  }

  /** The directories `os.makedirs(path)` ensures: `path` and all its ancestors. */
  function Prefixes(path: Path): set<Path> {
    set k | 1 <= k <= |path| :: path[..k]
  }

  /** When `shutil.copy2(src, dst)` succeeds: the source is a file, the
      destination's parent is a directory, and the two paths differ (a copy
      onto itself raises `SameFileError`). A destination that is itself a
      directory counts as a failure here. */
  predicate CopyAllowed(files: map<Path, Bytes>, dirs: set<Path>, src: Path, dst: Path) {
    src in files && src != dst && ParentExists(dirs, dst) && dst !in dirs
  }

  /** The last components of the entries that lie directly in `d`. */
  ghost function ChildNames(entries: set<Path>, d: Path): (names: set<Name>)
    ensures forall n :: n in names <==> d + [n] in entries
    decreases entries
  {
    if entries == {} then {}
    else
      var p :| p in entries;
      var rest := ChildNames(entries - {p}, d);
      if |p| == |d| + 1 && p[..|d|] == d then
        assert p == d + [p[|d|]];
        rest + {p[|d|]}
      else rest
  }

  class FileSystem {
    var files: map<Path, Bytes>
    var dirs: set<Path>

    ghost predicate Valid()
      reads this
    {
      IsTree(files, dirs)
    }

    /** `os.makedirs(path, exist_ok=True)`: creates `path` and its missing
        ancestors; fails, changing nothing, when one of them is a file. */
    method MakeDirs(path: Path) returns (ok: bool)
      requires Valid() && path != []
      modifies this
      ensures Valid()
      ensures ok <==> forall k :: 1 <= k <= |path| ==> path[..k] !in old(files)
      ensures files == old(files)
      ensures dirs == if ok then old(dirs) + Prefixes(path) else old(dirs)
    {
      ok := forall k | 1 <= k <= |path| :: path[..k] !in files;
      if ok {
        forall d | d in dirs + Prefixes(path) ensures ParentExists(dirs + Prefixes(path), d) {
          if d in Prefixes(path) {
            var k :| 1 <= k <= |path| && d == path[..k];
            if k > 1 {
              assert Parent(d) == path[..k - 1];
            }
          } else {
            assert ParentExists(dirs, d);
          }
        }
        dirs := dirs + Prefixes(path);
      }
    }

    /** `shutil.copy2(src, dst)`: the destination receives the source's bytes,
        replacing whatever file was there; nothing else changes. */
    method Copy2(src: Path, dst: Path) returns (ok: bool)
      requires Valid()
      modifies this
      ensures Valid() && dirs == old(dirs)
      ensures ok == CopyAllowed(old(files), dirs, src, dst)
      ensures files == if ok then old(files)[dst := old(files)[src]] else old(files)
    {
      ok := CopyAllowed(files, dirs, src, dst);
      if ok {
        files := files[dst := files[src]];
      }
    }

    /** Writing a whole file at `path`, as `DataFrame.to_csv` does: it is
        created or replaced when its parent is a directory and `path` is not
        one; otherwise the write raises and nothing changes. */
    method WriteFile(path: Path, content: Bytes) returns (ok: bool)
      requires Valid()
      modifies this
      ensures Valid() && dirs == old(dirs)
      ensures ok == (ParentExists(dirs, path) && path !in dirs)
      ensures files == if ok then old(files)[path := content] else old(files)
    {
      ok := ParentExists(dirs, path) && path !in dirs;
      if ok {
        files := files[path := content];
      }
    }

    /** The names of the files and directories directly in `d`. */
    ghost function Children(d: Path): (names: set<Name>)
      reads this
      ensures forall n :: n in names <==> (d + [n] in files || d + [n] in dirs)
    {
      ChildNames(files.Keys + dirs, d)
    }

    /** `os.listdir(d)`: the names of the entries directly in `d`, which
        must be a directory (`os.listdir` raises otherwise). */
    method ListDir(d: Path) returns (names: set<Name>)
      requires d in dirs
      ensures names == Children(d)
    {
      var entries := files.Keys + dirs;
      names := set p | p in entries && |p| == |d| + 1 && p[..|d|] == d :: p[|d|];
      assert forall n :: d + [n] in entries ==> (d + [n])[|d|] == n && (d + [n])[..|d|] == d;
      assert forall p :: p in entries && |p| == |d| + 1 && p[..|d|] == d ==> p == d + [p[|d|]];
    }

    /** The files `os.walk(top)` reports, at any depth. `os.walk` reports
        nothing, and raises nothing, when `top` is not a directory. */
    function WalkFiles(top: Path): (r: set<Path>)
      reads this
      ensures forall p :: p in r <==> top in dirs && p in files && Below(p, top)
    {
      if top in dirs then set p | p in files && Below(p, top) else {}
    }
  }
}

=== FILE: layout.dfy ===
/** The canonical output layout `data/processed/{split}/{category}/` and the
    name `copy_images` gives to the file at position `i` of its list. */
module Layout {
  import opened Naming
  import opened FileSystem

  const ProcessedRoot: Path := ["data", "processed"]

  /** The output splits, in the order the metadata rescan visits them. */
  const Splits: seq<string> := ["train", "val", "test"]

  /** The output categories, in the order the metadata rescan visits them. */
  const Categories: seq<string> := ["pneumonia", "tuberculosis", "normal"]

  function OutputDir(split: string, category: string): Path {
    ProcessedRoot + [split, category]
  }

  /** The part of a destination name before the extension. */
  function Stem(category: string, split: string, i: nat): string {
    category + "_" + split + "_" + Pad4(i)
  }

  /** `f"{category}_{split}_{i:04d}{os.path.splitext(src_path)[1]}"` */
  function FileName(category: string, split: string, i: nat, src: Path): string {
    Stem(category, split, i) + SplitExt(BaseName(src))
  }

  /** `os.path.join("data/processed", split, category, filename)` */
  function Destination(category: string, split: string, i: nat, src: Path): Path {
    OutputDir(split, category) + [FileName(category, split, i, src)]
  }

  /** For an index below 10000 the name reads: the category, the split, exactly
      four digits that spell the index, then the source's extension. */
  lemma FileNameFormat(category: string, split: string, i: nat, src: Path)
    requires i < 10000
    ensures var name := FileName(category, split, i, src);
      var head := category + "_" + split + "_";
      |name| == |head| + 4 + |SplitExt(BaseName(src))| &&
      name[..|head|] == head &&
      AllDigits(name[|head|..|head| + 4]) &&
      DigitsValue(name[|head|..|head| + 4]) == i &&
      name[|head| + 4..] == SplitExt(BaseName(src))
  {
    Pad4FixedWidth(i);
    var name := FileName(category, split, i, src);
    var head := category + "_" + split + "_";
    assert name == head + Pad4(i) + SplitExt(BaseName(src));
    assert name[|head|..|head| + 4] == Pad4(i);
  }

  /** Dropping a common head from two equal strings leaves equal tails. */
  lemma DropHead(head: string, x: string, y: string)
    requires head + x == head + y
    ensures x == y
  {
    assert x == (head + x)[|head|..];
    assert y == (head + y)[|head|..];
  }

  /** A destination name determines the position it was written for. */
  lemma FileNameDeterminesIndex(category: string, split: string, i: nat, j: nat, a: Path, b: Path)
    requires FileName(category, split, i, a) == FileName(category, split, j, b)
    ensures i == j
  {
    var head := category + "_" + split + "_";
    var ea, eb := SplitExt(BaseName(a)), SplitExt(BaseName(b));
    FileNameParts(category, split, i, a);
    FileNameParts(category, split, j, b);
    DropHead(head, Pad4(i) + ea, Pad4(j) + eb);
    DigitsThenExtension(Pad4(i), ea, Pad4(j), eb);
  }

  /** A destination name is the common head, then the digits and the
      extension that vary. */
  lemma FileNameParts(category: string, split: string, i: nat, src: Path)
    ensures FileName(category, split, i, src) ==
      (category + "_" + split + "_") + (Pad4(i) + SplitExt(BaseName(src)))
  {
    var head := category + "_" + split + "_";
    assert (head + Pad4(i)) + SplitExt(BaseName(src)) == head + (Pad4(i) + SplitExt(BaseName(src)));
  }

  /** Within one `copy_images` call distinct positions get distinct
      destinations, whatever the sources and their extensions. */
  lemma DestinationsDistinct(category: string, split: string, i: nat, j: nat, a: Path, b: Path)
    requires i != j
    ensures Destination(category, split, i, a) != Destination(category, split, j, b)
  {
    var d1, d2 := Destination(category, split, i, a), Destination(category, split, j, b);
    assert d1[4] == FileName(category, split, i, a);
    assert d2[4] == FileName(category, split, j, b);
    if FileName(category, split, i, a) == FileName(category, split, j, b) {
      FileNameDeterminesIndex(category, split, i, j, a, b);
    }
  }

  lemma StemDotFree(category: string, split: string, i: nat)
    requires DotFree(category) && DotFree(split)
    ensures DotFree(Stem(category, split, i))
  {
    var s := Stem(category, split, i);
    var p := Pad4(i);
    forall k | 0 <= k < |s| ensures s[k] != '.' {
      if k >= |s| - |p| {
        assert s[k] == p[k - (|s| - |p|)];
      } else if k < |category| {
        assert s[k] == category[k];
      } else if |category| < k < |category| + 1 + |split| {
        assert s[k] == split[k - |category| - 1];
      }
    }
  }

  /** A copied source that passed the image filter is found by the metadata
      rescan's filter exactly when its name holds something other than dots
      before the image suffix: `os.path.splitext` gives a name such as `.png`
      no extension, so its copy is written without one. */
  lemma CopiedNameIsImage(category: string, split: string, i: nat, src: Path)
    requires DotFree(category) && DotFree(split)
    requires IsImageName(BaseName(src))
    ensures var name := BaseName(src);
      IsImageName(FileName(category, split, i, src)) <==>
      !OnlyDots(name[..|name| - |ImageSuffix(name)|])
  {
    var name := BaseName(src);
    var stem := Stem(category, split, i);
    assert DotFree(stem) by {
      StemDotFree(category, split, i);
    }
    StemExtensionImage(stem, name);
    assert FileName(category, split, i, src) == stem + SplitExt(name);
  }

  /** The three categories and splits of the layout contain no dots. */
  lemma LayoutNamesDotFree()
    ensures forall c :: c in Categories ==> DotFree(c)
    ensures forall s :: s in Splits ==> DotFree(s)
  {
  }
}

=== FILE: metadata.dfy ===
/** `create_metadata_csv`: rescan the nine output directories and derive one
    row per image name found, purely from the directory it sits in. */
module Metadata {
  import opened Wrappers
  import opened FileSystem
  import opened Naming
  import opened Layout
  import opened Selection

  /** One row of `metadata.csv`, columns `image_id, filepath, pneumonia, tb,
      normal, source, split`. */
  datatype Row = Row(imageId: string, filepath: Path, pneumonia: nat, tb: nat, normal: nat,
                     source: string, split: string)

  /** Exactly one of the three label flags is 1, the others 0. */
  predicate OneHot(row: Row) {
    && row.pneumonia <= 1 && row.tb <= 1 && row.normal <= 1
    && row.pneumonia + row.tb + row.normal == 1
  }

  /** The category a row's flags name. */
  function Label(row: Row): string {
    if row.pneumonia == 1 then "pneumonia" else if row.tb == 1 then "tuberculosis" else "normal"
  }

  /** Lines 128-136: the row for file `filename` of `data/processed/{split}/{category}`.
      For a category of the layout the flags are one-hot and name that
      category; the source is the pneumonia dataset exactly for `pneumonia` and
      `normal`; identity and split are the file's name and directory. */
  function MakeRow(split: string, category: string, filename: string): (row: Row)
    ensures category in Categories ==> OneHot(row) && Label(row) == category
    ensures row.source == "pneumonia_dataset" <==> category == "pneumonia" || category == "normal"
    ensures row.source == "tb_dataset" <==> category != "pneumonia" && category != "normal"
    ensures row.imageId == filename && row.split == split
    ensures row.filepath == OutputDir(split, category) + [filename] && BaseName(row.filepath) == filename
  {
    Row(filename, OutputDir(split, category) + [filename],
        if category == "pneumonia" then 1 else 0,
        if category == "tuberculosis" then 1 else 0,
        if category == "normal" then 1 else 0,
        if category in ["pneumonia", "normal"] then "pneumonia_dataset" else "tb_dataset",
        split)
  }

  /** The nine output directories in the order the rescan visits them:
      group `3 * si + ci` is split `Splits[si]` and category `Categories[ci]`. */
  function GroupSplit(g: nat): string
    requires g < 9
  {
    if g < 3 then "train" else if g < 6 then "val" else "test"
  }

  function GroupCategory(g: nat): string
    requires g < 9
  {
    if g == 0 || g == 3 || g == 6 then "pneumonia"
    else if g == 1 || g == 4 || g == 7 then "tuberculosis"
    else "normal"
  }

  function GroupDir(g: nat): Path
    requires g < 9
  {
    OutputDir(GroupSplit(g), GroupCategory(g))
  }

  /** Split `si` and category `ci` are visited as group `3 * si + ci`. */
  lemma GroupIndex(si: nat, ci: nat)
    requires si < 3 && ci < 3
    ensures GroupSplit(3 * si + ci) == Splits[si] && GroupCategory(3 * si + ci) == Categories[ci]
  {
  }

  function SplitIndex(split: string): nat {
    if split == "train" then 0 else if split == "val" then 1 else if split == "test" then 2 else 3
  }

  function CategoryIndex(category: string): nat {
    if category == "pneumonia" then 0 else if category == "tuberculosis" then 1
    else if category == "normal" then 2 else 3
  }

  /** The group a row belongs to, read back from its split and its flags. */
  function GroupOf(row: Row): nat {
    3 * SplitIndex(row.split) + CategoryIndex(Label(row))
  }

  /** The row for file `filename` of group `g`. */
  function GroupRow(g: nat, filename: string): Row
    requires g < 9
  {
    MakeRow(GroupSplit(g), GroupCategory(g), filename)
  }

  /** A row made for group `g` is read back as belonging to group `g`. */
  lemma GroupOfRow(g: nat, filename: string)
    requires g < 9
    ensures GroupOf(GroupRow(g, filename)) == g
  {
    assert GroupCategory(g) in Categories;
  }

  /** The names in `dir` the rescan keeps: `os.listdir` entries, files or
      directories, whose names pass the image filter. */
  ghost function ImageEntries(files: map<Path, Bytes>, dirs: set<Path>, dir: Path): set<Name> {
    set n | n in ChildNames(files.Keys + dirs, dir) && IsImageName(n)
  }

  /** The image entries of the nine directories, in visiting order. */
  ghost function Listing(files: map<Path, Bytes>, dirs: set<Path>): (listing: seq<set<Name>>) {
    seq(9, h requires 0 <= h < 9 => ImageEntries(files, dirs, GroupDir(h)))
  }

  /** The number of entries in the first `g` sets of a listing. */
  function Total(listing: seq<set<Name>>, g: nat): nat
    requires g <= |listing|
  {
    if g == 0 then 0 else Total(listing, g - 1) + |listing[g - 1]|
  }

  /** The file names the rows carry, in order. */
  function Names(rows: seq<Row>): (names: seq<Name>)
    ensures |names| == |rows| && forall k :: 0 <= k < |rows| ==> names[k] == rows[k].imageId
  {
    seq(|rows|, k requires 0 <= k < |rows| => rows[k].imageId)
  }

  /** `rows` holds, once each, the row of every name in `entries` for
      `data/processed/{split}/{category}`, and nothing else. */
  predicate RowsFor(split: string, category: string, entries: set<Name>, rows: seq<Row>) {
    && Distinct(rows)
    && (forall k :: 0 <= k < |rows| ==> rows[k] == MakeRow(split, category, rows[k].imageId))
    && Elements(Names(rows)) == entries
  }

  /** Lines 123-136 for one directory: one row per image entry, each once, in
      an order `os.listdir` leaves unspecified. */
  method DirectoryRows(fs: FileSystem, split: string, category: string) returns (rows: seq<Row>)
    requires OutputDir(split, category) in fs.dirs
    ensures RowsFor(split, category, ImageEntries(fs.files, fs.dirs, OutputDir(split, category)), rows)
  {
    var categoryPath := OutputDir(split, category);
    ghost var images := ImageEntries(fs.files, fs.dirs, categoryPath);
    rows := [];
    var pending := fs.ListDir(categoryPath);
    while pending != {}
      invariant pending <= fs.Children(categoryPath)
      invariant Distinct(Names(rows))
      invariant forall k :: 0 <= k < |rows| ==> rows[k] == MakeRow(split, category, rows[k].imageId)
      invariant Elements(Names(rows)) == images - pending
      decreases pending
    {
      var filename :| filename in pending;
      pending := pending - {filename};
      if IsImageName(filename) {
        assert filename !in Elements(Names(rows));
        AppendRow(rows, split, category, filename);
        rows := rows + [MakeRow(split, category, filename)];
      } else {
        assert filename !in images;
      }
    }
    forall i, j | 0 <= i < j < |rows| ensures rows[i] != rows[j] {
      assert Names(rows)[i] != Names(rows)[j];
    }
  }

  /** Appending the row of a new name keeps the names distinct and adds that
      name to them. */
  lemma AppendRow(rows: seq<Row>, split: string, category: string, filename: Name)
    requires Distinct(Names(rows)) && filename !in Elements(Names(rows))
    ensures var more := rows + [MakeRow(split, category, filename)];
      Distinct(Names(more)) && Elements(Names(more)) == Elements(Names(rows)) + {filename}
  {
    var more := rows + [MakeRow(split, category, filename)];
    assert Names(more) == Names(rows) + [filename];
    assert Elements(Names(rows) + [filename]) == Elements(Names(rows)) + {filename};
  }

  /** A directory's rows number as many as its image entries, and the row for
      name `n` is among them exactly when `n` is an image entry. */
  lemma RowsForFacts(split: string, category: string, entries: set<Name>, rows: seq<Row>)
    requires RowsFor(split, category, entries, rows)
    ensures |rows| == |entries|
    ensures forall n :: MakeRow(split, category, n) in rows <==> n in entries
  {
    var names := Names(rows);
    forall i, j | 0 <= i < j < |names| ensures names[i] != names[j] {
      assert rows[i] == MakeRow(split, category, names[i]);
      assert rows[j] == MakeRow(split, category, names[j]);
    }
    DistinctCard(names);
    forall n ensures MakeRow(split, category, n) in rows <==> n in entries {
      if MakeRow(split, category, n) in rows {
        var k :| 0 <= k < |rows| && rows[k] == MakeRow(split, category, n);
        assert names[k] == n;
      }
      if n in entries {
        var k :| 0 <= k < |names| && names[k] == n;
        assert rows[k] == MakeRow(split, category, n);
      }
    }
  }

  /** `rows` are the rows of group `g` for the image entries `entries`. */
  predicate DirRows(g: nat, entries: set<Name>, rows: seq<Row>) {
    g < 9 && RowsFor(GroupSplit(g), GroupCategory(g), entries, rows)
  }

  /** The groups' rows one after the other. */
  function Flatten(parts: seq<seq<Row>>): seq<Row> {
    if parts == [] then [] else Flatten(parts[..|parts| - 1]) + parts[|parts| - 1]
  }

  /** The rescan has visited the first `|parts|` groups: each directory was
      present, `parts[h]` holds the rows of group `h`, and `metadata` is
      their concatenation. */
  ghost predicate Scanned(files: map<Path, Bytes>, dirs: set<Path>, metadata: seq<Row>, parts: seq<seq<Row>>) {
    && |parts| <= 9
    && metadata == Flatten(parts)
    && (forall h :: 0 <= h < |parts| ==> GroupDir(h) in dirs && DirRows(h, Listing(files, dirs)[h], parts[h]))
  }

  /** `rows` is a possible rescan of the nine directories. */
  ghost predicate Rescan(files: map<Path, Bytes>, dirs: set<Path>, rows: seq<Row>) {
    exists parts :: |parts| == 9 && Scanned(files, dirs, rows, parts)
  }

  /** Visiting one more group extends the scan. */
  lemma ScanGroup(files: map<Path, Bytes>, dirs: set<Path>, metadata: seq<Row>, parts: seq<seq<Row>>, rows: seq<Row>)
    requires Scanned(files, dirs, metadata, parts) && |parts| < 9
    requires GroupDir(|parts|) in dirs && DirRows(|parts|, Listing(files, dirs)[|parts|], rows)
    ensures Scanned(files, dirs, metadata + rows, parts + [rows])
  {
    assert (parts + [rows])[..|parts|] == parts;
  }

  /** Lines 112-141, the row sequence behind `metadata.csv`. `os.listdir`
      raises when one of the nine directories is missing; the model returns
      the first such directory in visiting order. Otherwise the rows are
      those of the nine directories, train before val before test and within
      a split pneumonia, tuberculosis, normal. */
  method CreateMetadata(fs: FileSystem) returns (r: Result<seq<Row>, Path>)
    ensures r.Success? <==> forall g :: 0 <= g < 9 ==> GroupDir(g) in fs.dirs
    ensures r.Failure? ==>
      exists g :: 0 <= g < 9 && r.error == GroupDir(g) && GroupDir(g) !in fs.dirs &&
        (forall h :: 0 <= h < g ==> GroupDir(h) in fs.dirs)
    ensures r.Success? ==> Rescan(fs.files, fs.dirs, r.value)
  {
    var metadata: seq<Row> := [];
    ghost var parts: seq<seq<Row>> := [];
    for si := 0 to 3
      invariant |parts| == 3 * si && Scanned(fs.files, fs.dirs, metadata, parts)
    {
      for ci := 0 to 3
        invariant |parts| == 3 * si + ci && Scanned(fs.files, fs.dirs, metadata, parts)
      {
        ghost var g := 3 * si + ci;
        GroupIndex(si, ci);
        var split, category := Splits[si], Categories[ci];
        var categoryPath := OutputDir(split, category);
        assert GroupDir(g) == categoryPath;
        if categoryPath !in fs.dirs {
          return Failure(categoryPath);
        }
        var rows := DirectoryRows(fs, split, category);
        assert Listing(fs.files, fs.dirs)[g] == ImageEntries(fs.files, fs.dirs, categoryPath);
        ScanGroup(fs.files, fs.dirs, metadata, parts, rows);
        parts := parts + [rows];
        metadata := metadata + rows;
      }
    }
    r := Success(metadata);
  }

  /** Rows of different groups, or of different names, differ. */
  lemma GroupRowInjective(g1: nat, n1: string, g2: nat, n2: string)
    requires g1 < 9 && g2 < 9
    requires GroupRow(g1, n1) == GroupRow(g2, n2)
    ensures g1 == g2 && n1 == n2
  {
    GroupOfRow(g1, n1);
    GroupOfRow(g2, n2);
  }

  /** A row of a group's rows is that group's row for one of its entries. */
  lemma InGroup(g: nat, entries: set<Name>, rows: seq<Row>, x: Row)
    requires DirRows(g, entries, rows) && x in rows
    ensures x == GroupRow(g, x.imageId) && x.imageId in entries
  {
    var k :| 0 <= k < |rows| && rows[k] == x;
    assert Names(rows)[k] == x.imageId;
  }

  /** A row is in the concatenation exactly when it is in one of the groups. */
  lemma {:induction false} FlattenMembers(parts: seq<seq<Row>>)
    ensures forall x :: x in Flatten(parts) <==> exists h :: 0 <= h < |parts| && x in parts[h]
  {
    if parts != [] {
      var g := |parts| - 1;
      var init := parts[..g];
      FlattenMembers(init);
      forall x ensures x in Flatten(parts) <==> exists h :: 0 <= h < |parts| && x in parts[h] {
        if x in parts[g] {
          assert x in Flatten(init) + parts[g];
        }
        if h :| 0 <= h < g && x in parts[h] {
          assert x in init[h];
        }
      }
    }
  }

  /** No row of the first groups is also a row of group `g`. */
  lemma EarlierGroupsDisjoint(listing: seq<set<Name>>, parts: seq<seq<Row>>, g: nat)
    requires g < |parts| <= 9 && |parts| <= |listing|
    requires forall h :: 0 <= h < |parts| ==> DirRows(h, listing[h], parts[h])
    ensures Elements(Flatten(parts[..g])) !! Elements(parts[g])
  {
    var init := parts[..g];
    FlattenMembers(init);
    forall x | x in Elements(Flatten(init)) ensures x !in Elements(parts[g]) {
      var h :| 0 <= h < g && x in init[h];
      assert init[h] == parts[h];
      InGroup(h, listing[h], parts[h], x);
      if x in parts[g] {
        InGroup(g, listing[g], parts[g], x);
        GroupRowInjective(h, x.imageId, g, x.imageId);
      }
    }
  }

  /** The rows of the first `|parts|` groups, one after the other: one per
      entry of those groups, none twice, each from one of the groups. */
  lemma {:induction false} FlattenFacts(listing: seq<set<Name>>, parts: seq<seq<Row>>)
    requires |parts| <= 9 && |parts| <= |listing|
    requires forall h :: 0 <= h < |parts| ==> DirRows(h, listing[h], parts[h])
    ensures |Flatten(parts)| == Total(listing, |parts|)
    ensures Distinct(Flatten(parts))
    ensures forall x :: x in Flatten(parts) <==> exists h :: 0 <= h < |parts| && x in parts[h]
  {
    FlattenMembers(parts);
    if parts != [] {
      var g := |parts| - 1;
      var init := parts[..g];
      assert forall h :: 0 <= h < g ==> init[h] == parts[h];
      FlattenFacts(listing, init);
      RowsForFacts(GroupSplit(g), GroupCategory(g), listing[g], parts[g]);
      EarlierGroupsDisjoint(listing, parts, g);
      DistinctConcat(Flatten(init), parts[g]);
    }
  }

  /** What a rescan promises about its rows as a whole: one row per image
      entry of the nine directories, none twice, and the row for name `n` of
      group `h` is present exactly when `n` is an image entry there. */
  lemma RescanRows(files: map<Path, Bytes>, dirs: set<Path>, rows: seq<Row>)
    requires Rescan(files, dirs, rows)
    ensures |rows| == Total(Listing(files, dirs), 9) && Distinct(rows)
    ensures forall h, n :: 0 <= h < 9 ==> (GroupRow(h, n) in rows <==> n in Listing(files, dirs)[h])
  {
    var parts :| |parts| == 9 && Scanned(files, dirs, rows, parts);
    var listing := Listing(files, dirs);
    FlattenFacts(listing, parts);
    forall h, n | 0 <= h < 9 ensures GroupRow(h, n) in rows <==> n in listing[h] {
      RowsForFacts(GroupSplit(h), GroupCategory(h), listing[h], parts[h]);
      if GroupRow(h, n) in rows {
        var h' :| 0 <= h' < 9 && GroupRow(h, n) in parts[h'];
        InGroup(h', listing[h'], parts[h'], GroupRow(h, n));
        GroupRowInjective(h, n, h', GroupRow(h, n).imageId);
      }
    }
  }

  /** An image file in one of the nine directories has its row in a rescan. */
  lemma RescanFinds(files: map<Path, Bytes>, dirs: set<Path>, rows: seq<Row>, g: nat, n: Name)
    requires Rescan(files, dirs, rows) && g < 9
    requires GroupDir(g) + [n] in files && IsImageName(n)
    ensures GroupRow(g, n) in rows
  {
    RescanRows(files, dirs, rows);
    assert n in ChildNames(files.Keys + dirs, GroupDir(g));
    assert n in Listing(files, dirs)[g];
  }

  /** What a rescan promises about each row: it is the row of an image entry
      of one of the nine directories, its flags are one-hot, and its path
      names an existing entry. */
  lemma RescanRowFacts(files: map<Path, Bytes>, dirs: set<Path>, rows: seq<Row>)
    requires Rescan(files, dirs, rows)
    ensures forall k :: 0 <= k < |rows| ==>
      GroupOf(rows[k]) < 9 && rows[k] == GroupRow(GroupOf(rows[k]), rows[k].imageId) &&
      rows[k].imageId in Listing(files, dirs)[GroupOf(rows[k])]
    ensures forall k :: 0 <= k < |rows| ==>
      OneHot(rows[k]) && (rows[k].filepath in files || rows[k].filepath in dirs)
  {
    var parts :| |parts| == 9 && Scanned(files, dirs, rows, parts);
    var listing := Listing(files, dirs);
    FlattenFacts(listing, parts);
    forall k | 0 <= k < |rows|
      ensures GroupOf(rows[k]) < 9 && rows[k] == GroupRow(GroupOf(rows[k]), rows[k].imageId)
      ensures rows[k].imageId in listing[GroupOf(rows[k])]
      ensures OneHot(rows[k]) && (rows[k].filepath in files || rows[k].filepath in dirs)
    {
      var x := rows[k];
      assert x in Flatten(parts);
      var h :| 0 <= h < 9 && x in parts[h];
      InGroup(h, listing[h], parts[h], x);
      GroupOfRow(h, x.imageId);
      EntryRow(files, dirs, h, x.imageId);
    }
  }

  /** The row of an image entry is one-hot and its path exists. */
  lemma EntryRow(files: map<Path, Bytes>, dirs: set<Path>, h: nat, n: Name)
    requires h < 9 && n in Listing(files, dirs)[h]
    ensures OneHot(GroupRow(h, n))
    ensures GroupRow(h, n).filepath in files || GroupRow(h, n).filepath in dirs
  {
    assert GroupCategory(h) in Categories;
    assert n in ChildNames(files.Keys + dirs, GroupDir(h));
  }
}

=== FILE: naming.dfy ===
/** File-name arithmetic of the preprocessing script: the image-suffix filter,
    the extension that `os.path.splitext` returns, and the zero-padded
    sequence number of the `{i:04d}` format. */
module Naming {

  /** The three suffixes the script's filters accept; the match is case-sensitive. */
  const ImageSuffixes: set<string> := {".jpeg", ".jpg", ".png"}

  predicate EndsWith(s: string, suffix: string) {
    |suffix| <= |s| && s[|s| - |suffix|..] == suffix
  }

  /** `name.endswith(('.jpeg', '.jpg', '.png'))` */
  predicate IsImageName(name: string) {
    EndsWith(name, ".jpeg") || EndsWith(name, ".jpg") || EndsWith(name, ".png")
  }

  predicate IsDigit(c: char) { '0' <= c <= '9' }

  predicate AllDigits(s: string) {
    forall k :: 0 <= k < |s| ==> IsDigit(s[k])
  }

  function DigitChar(d: nat): (c: char)
    requires d < 10
    ensures IsDigit(c) && c as int - '0' as int == d
  {
    (d + '0' as int) as char
  }

  /** The value of a string of decimal digits, leading zeros allowed (`int(s)`). */
  function DigitsValue(s: string): nat
    requires AllDigits(s)
  {
    if s == [] then 0 else 10 * DigitsValue(s[..|s| - 1]) + (s[|s| - 1] as int - '0' as int)
  }

  /** The decimal numeral of `n` without leading zeros (`str(n)`); it reads back as `n`. */
  function Decimal(n: nat): (s: string)
    ensures 1 <= |s| && AllDigits(s)
    ensures DigitsValue(s) == n
    ensures |s| == 1 || s[0] != '0'
  {
    if n < 10 then [DigitChar(n)]
    else
      var s := Decimal(n / 10) + [DigitChar(n % 10)];
      assert s[..|s| - 1] == Decimal(n / 10);
      s
  }

  function Zeros(k: nat): (z: string)
    ensures |z| == k && forall i :: 0 <= i < k ==> z[i] == '0'
  {
    seq(k, _ => '0')
  }

  lemma {:induction false} ZerosValue(k: nat)
    ensures AllDigits(Zeros(k)) && DigitsValue(Zeros(k)) == 0
  {
    if k > 0 {
      assert Zeros(k)[..k - 1] == Zeros(k - 1);
      ZerosValue(k - 1);
    }
  }

  /** Leading zeros do not change the value of a numeral. */
  lemma {:induction false} LeadingZerosValue(k: nat, s: string)
    requires AllDigits(s)
    ensures AllDigits(Zeros(k) + s) && DigitsValue(Zeros(k) + s) == DigitsValue(s)
  {
    if s == [] {
      assert Zeros(k) + s == Zeros(k);
      ZerosValue(k);
    } else {
      var t := Zeros(k) + s;
      assert t[..|t| - 1] == Zeros(k) + s[..|s| - 1];
      LeadingZerosValue(k, s[..|s| - 1]);
    }
  }

  function Max(a: nat, b: nat): nat { if a < b then b else a }

  /** `f"{n:04d}"`: the numeral of `n` left-padded with zeros to at least four
      characters. It consists of digits only and reads back as `n`, so two
      different indices never share a padded numeral. */
  function Pad4(n: nat): (s: string)
    ensures AllDigits(s) && |s| == Max(4, |Decimal(n)|)
    ensures DigitsValue(s) == n
  {
    var d := Decimal(n);
    if |d| >= 4 then d
    else
      LeadingZerosValue(4 - |d|, d);
      Zeros(4 - |d|) + d
  }

  /** Every index below 10000 is written with exactly four characters. */
  lemma {:induction false} Pad4FixedWidth(n: nat)
    requires n < 10000
    ensures |Pad4(n)| == 4
  {
    if n >= 10 {
      assert |Decimal(n)| == |Decimal(n / 10)| + 1;
      if n / 10 >= 10 {
        assert |Decimal(n / 10)| == |Decimal(n / 100)| + 1;
        if n / 100 >= 10 {
          assert |Decimal(n / 100)| == |Decimal(n / 1000)| + 1;
          assert |Decimal(n / 1000)| == 1;
        }
      }
    }
  }

  /** Python's `str.rfind` for one character: the last index holding `c`, or -1. */
  function RFind(s: string, c: char): (i: int)
    ensures -1 <= i < |s|
    ensures 0 <= i ==> s[i] == c
    ensures forall k :: i < k < |s| ==> s[k] != c
  {
    if s == [] then -1
    else if s[|s| - 1] == c then |s| - 1
    else RFind(s[..|s| - 1], c)
  }

  predicate OnlyDots(s: string) {
    forall k :: 0 <= k < |s| ==> s[k] == '.'
  }

  /** `s` holds no dot. */
  predicate DotFree(s: string) {
    forall k :: 0 <= k < |s| ==> s[k] != '.'
  }

  /** Some dot of `name` has a character other than a dot before it. */
  predicate HasExtension(name: string) {
    exists k :: 0 <= k < |name| && name[k] == '.' && !OnlyDots(name[..k])
  }

  /** Whether the last dot, at `dot`, starts an extension depends only on
      whether any dot of the name has a non-dot before it. */
  lemma LastDotStartsExtension(name: string, dot: int)
    requires -1 <= dot < |name| && (0 <= dot ==> name[dot] == '.')
    requires forall k :: dot < k < |name| ==> name[k] != '.'
    ensures (0 <= dot && !OnlyDots(name[..dot])) <==> HasExtension(name)
  {
    if HasExtension(name) {
      var k :| 0 <= k < |name| && name[k] == '.' && !OnlyDots(name[..k]);
      assert k <= dot;
      var j :| 0 <= j < k && name[..k][j] != '.';
      assert name[..dot][j] == name[j];
    }
  }

  /** The extension part of `os.path.splitext` for a name without separators:
      the text from the last dot on, unless no dot exists or every character
      before that dot is itself a dot (a leading-dot name such as `.png`), in
      which case the extension is empty. A non-empty extension starts with the
      only dot it holds and ends the name, so it is the text from the last
      dot on. */
  function SplitExt(name: string): (ext: string)
    ensures ext == [] || (ext[0] == '.' && EndsWith(name, ext) && |ext| < |name|)
    ensures forall k :: 0 < k < |ext| ==> ext[k] != '.'
  {
    var dot := RFind(name, '.');
    if dot >= 0 && !OnlyDots(name[..dot]) then name[dot..] else ""
  }

  /** The extension is non-empty exactly when some dot of the name has a
      character other than a dot before it; with the shape `SplitExt`
      promises, that makes it the text from the last dot on. */
  lemma SplitExtNonEmpty(name: string)
    ensures SplitExt(name) != [] <==> HasExtension(name)
  {
    LastDotStartsExtension(name, RFind(name, '.'));
  }

  /** An extension is either empty or a dot followed by dot-free text. */
  predicate IsExtension(ext: string) {
    (ext == [] || ext[0] == '.') && forall k :: 0 < k < |ext| ==> ext[k] != '.'
  }

  /** A name that ends in one of the image suffixes passes the image filter. */
  lemma SuffixMakesImage(name: string, suffix: string)
    requires suffix in ImageSuffixes && EndsWith(name, suffix)
    ensures IsImageName(name)
  {
  }

  /** A name accepted by the image filter keeps its image suffix as extension,
      provided something other than dots precedes that suffix. */
  lemma ImageSuffixIsExtension(name: string, suffix: string)
    requires suffix in ImageSuffixes && EndsWith(name, suffix)
    requires !OnlyDots(name[..|name| - |suffix|])
    ensures SplitExt(name) == suffix
  {
    var start := |name| - |suffix|;
    assert name[start] == suffix[0] == '.';
    forall k | start < k < |name| ensures name[k] != '.' {
      assert name[k] == suffix[k - start];
    }
    assert RFind(name, '.') == start;
  }

  /** A name accepted by the image filter whose stem is only dots (for example
      `.png` or `..jpg`) gets an empty extension from `os.path.splitext`. */
  lemma DotStemLosesExtension(name: string, suffix: string)
    requires suffix in ImageSuffixes && EndsWith(name, suffix)
    requires OnlyDots(name[..|name| - |suffix|])
    ensures SplitExt(name) == []
  {
    var start := |name| - |suffix|;
    forall k | start < k < |name| ensures name[k] != '.' {
      assert name[k] == suffix[k - start];
    }
    assert name[start] == suffix[0];
    assert RFind(name, '.') == start;
  }

  /** A dot-free stem followed by the extension of a dot-stemmed image name
      does not pass the image filter. */
  lemma DotStemNotImage(stem: string, name: string, suffix: string)
    requires DotFree(stem)
    requires suffix in ImageSuffixes && EndsWith(name, suffix)
    requires OnlyDots(name[..|name| - |suffix|])
    ensures !IsImageName(stem + SplitExt(name))
  {
    DotStemLosesExtension(name, suffix);
    ImageNameByExtension(stem, []);
    assert stem + SplitExt(name) == stem + [];
  }

  /** A stem followed by the extension of an image name whose stem is not only
      dots passes the image filter. */
  lemma SuffixKeptImage(stem: string, name: string, suffix: string)
    requires suffix in ImageSuffixes && EndsWith(name, suffix)
    requires !OnlyDots(name[..|name| - |suffix|])
    ensures IsImageName(stem + SplitExt(name))
  {
    ImageSuffixIsExtension(name, suffix);
    var copied := stem + suffix;
    assert copied[|copied| - |suffix|..] == suffix;
    SuffixMakesImage(copied, suffix);
  }

  /** The image suffix a filtered name carries (the filter accepts exactly
      one of the three for any name). */
  function ImageSuffix(name: string): (suffix: string)
    requires IsImageName(name)
    ensures suffix in ImageSuffixes && EndsWith(name, suffix)
  {
    if EndsWith(name, ".jpeg") then ".jpeg" else if EndsWith(name, ".jpg") then ".jpg" else ".png"
  }

  /** A dot-free stem followed by the extension of an image name passes the
      image filter exactly when the image name has something other than dots
      before its suffix. */
  lemma StemExtensionImage(stem: string, name: string)
    requires DotFree(stem)
    requires IsImageName(name)
    ensures IsImageName(stem + SplitExt(name)) <==> !OnlyDots(name[..|name| - |ImageSuffix(name)|])
  {
    var suffix := ImageSuffix(name);
    if OnlyDots(name[..|name| - |suffix|]) {
      DotStemNotImage(stem, name, suffix);
    } else {
      SuffixKeptImage(stem, name, suffix);
    }
  }

  /** The length of the run of digits a string starts with. */
  function LeadingDigits(s: string): (n: nat)
    ensures n <= |s|
  {
    if s == [] || !IsDigit(s[0]) then 0 else 1 + LeadingDigits(s[1..])
  }

  /** The digits before an extension are exactly the leading digit run. */
  lemma {:induction false} LeadingDigitsBeforeExtension(a: string, e: string)
    requires AllDigits(a) && IsExtension(e)
    ensures LeadingDigits(a + e) == |a|
  {
    if a != [] {
      assert (a + e)[1..] == a[1..] + e;
      LeadingDigitsBeforeExtension(a[1..], e);
    } else {
      assert a + e == e;
    }
  }

  /** Where the padded numeral is followed by an extension, the numeral can be
      read off again: equal results mean equal numerals and equal extensions. */
  lemma DigitsThenExtension(a: string, e1: string, b: string, e2: string)
    requires AllDigits(a) && AllDigits(b) && IsExtension(e1) && IsExtension(e2)
    requires a + e1 == b + e2
    ensures a == b && e1 == e2
  {
    LeadingDigitsBeforeExtension(a, e1);
    LeadingDigitsBeforeExtension(b, e2);
    assert a == (a + e1)[..|a|];
    assert b == (b + e2)[..|b|];
    assert e1 == (a + e1)[|a|..];
    assert e2 == (b + e2)[|b|..];
  }

  /** The image suffixes are extensions: a dot, then dot-free text. */
  lemma ImageSuffixesAreExtensions()
    ensures forall suffix :: suffix in ImageSuffixes ==> suffix != [] && IsExtension(suffix)
  {
  }

  /** A dot-free stem followed by an extension ends in a non-empty extension
      only when that is the whole extension. */
  lemma EndingExtension(stem: string, ext: string, suffix: string)
    requires DotFree(stem)
    requires IsExtension(ext) && IsExtension(suffix) && suffix != []
    requires EndsWith(stem + ext, suffix)
    ensures ext == suffix
  {
    var name := stem + ext;
    var start := |name| - |suffix|;
    assert name[start] == suffix[0] == '.';
    assert ext == name[start..] == suffix;
  }

  /** A dot-free stem followed by an extension passes the image filter exactly
      when that extension is one of the image suffixes. */
  lemma ImageNameByExtension(stem: string, ext: string)
    requires DotFree(stem)
    requires IsExtension(ext)
    ensures IsImageName(stem + ext) <==> ext in ImageSuffixes
  {
    var name := stem + ext;
    ImageSuffixesAreExtensions();
    if IsImageName(name) {
      var suffix := if EndsWith(name, ".jpeg") then ".jpeg" else if EndsWith(name, ".jpg") then ".jpg" else ".png";
      assert suffix in ImageSuffixes;
      EndingExtension(stem, ext, suffix);
    }
    if ext in ImageSuffixes {
      assert name[|name| - |ext|..] == ext;
    }
  }
}

=== FILE: pipeline.dfy ===
/** `preprocess_data`: create the processed layout, process both datasets,
    rescan the layout and write `metadata.csv`. */
module Preprocess {
  import opened Wrappers
  import opened FileSystem
  import opened Naming
  import opened Selection
  import opened Layout
  import opened Placement
  import opened Metadata
  import opened Datasets

  const MetadataFile: Path := ProcessedRoot + ["metadata.csv"]

  /** No prefix of `d` is a file, so `os.makedirs(d, exist_ok=True)` succeeds. */
  predicate NoFileOnPath(files: map<Path, Bytes>, d: Path) {
    forall k :: 1 <= k <= |d| ==> d[..k] !in files
  }

  /** The directories the first `g` `os.makedirs` calls of lines 12-14 ensure. */
  ghost function Created(g: nat): set<Path>
    requires g <= 9
  {
    if g == 0 then {} else Created(g - 1) + Prefixes(GroupDir(g - 1))
  }

  /** The layout holds the output directories and `data/processed`. */
  lemma {:induction false} CreatedHolds(g: nat)
    requires g <= 9
    ensures forall h :: 0 <= h < g ==> GroupDir(h) in Created(g)
    ensures g > 0 ==> ProcessedRoot in Created(g)
  {
    if g > 0 {
      CreatedHolds(g - 1);
      GroupDirPrefixes(g - 1);
      forall h | 0 <= h < g ensures GroupDir(h) in Created(g) {
        if h < g - 1 {
          assert GroupDir(h) in Created(g - 1);
        }
      }
    }
  }

  /** The layout holds nothing deeper than an output directory, and nothing
      at `metadata.csv`. */
  lemma {:induction false} CreatedShallow(g: nat)
    requires g <= 9
    ensures forall p :: p in Created(g) ==> |p| <= 4 && p != MetadataFile
  {
    if g > 0 {
      CreatedShallow(g - 1);
      GroupDirPrefixes(g - 1);
    }
  }

  lemma CreatedFacts(g: nat)
    requires g <= 9
    ensures forall h :: 0 <= h < g ==> GroupDir(h) in Created(g)
    ensures g > 0 ==> ProcessedRoot in Created(g)
    ensures forall p :: p in Created(g) ==> |p| <= 4 && p != MetadataFile
  {
    CreatedHolds(g);
    CreatedShallow(g);
  }

  /** The directories `os.makedirs` ensures for one output directory. */
  lemma GroupDirPrefixes(g: nat)
    requires g < 9
    ensures GroupDir(g) in Prefixes(GroupDir(g)) && ProcessedRoot in Prefixes(GroupDir(g))
    ensures forall p :: p in Prefixes(GroupDir(g)) ==> |p| <= 4 && p != MetadataFile
  {
    var d := GroupDir(g);
    assert d[..4] == d && d[..2] == ProcessedRoot;
    assert d[2] in Splits;
    forall p | p in Prefixes(d) ensures |p| <= 4 && p != MetadataFile {
      var k :| 1 <= k <= |d| && p == d[..k];
      if k == 3 {
        assert p[2] == d[2];
      }
    }
  }

  /** A tree on which every step of the pipeline can proceed: no file on the
      way to an output directory, no directory inside one, and no directory
      where `metadata.csv` goes. */
  ghost predicate Fresh(files: map<Path, Bytes>, dirs: set<Path>) {
    && (forall g :: 0 <= g < 9 ==> NoFileOnPath(files, GroupDir(g)))
    && (forall g, n :: 0 <= g < 9 ==> GroupDir(g) + [n] !in dirs)
    && MetadataFile !in dirs
  }

  /** Every directory the pipeline writes into: the nine output directories
      and `data/processed` itself for `metadata.csv`. */
  function OutputDirs(): set<Path> {
    CategoryDirs("pneumonia") + CategoryDirs("tuberculosis") + CategoryDirs("normal") + {ProcessedRoot}
  }

  /** The file name of an image without its image suffix. */
  function ImageStem(name: string): string
    requires IsImageName(name)
  {
    name[..|name| - |ImageSuffix(name)|]
  }

  /** Every copy of `srcs` that the rescan's filter accepts has its row:
      those whose source name has something other than dots before the
      suffix. */
  predicate Recorded(rows: seq<Row>, srcs: seq<Path>, category: string, split: string) {
    forall j :: 0 <= j < |srcs| && IsImageName(BaseName(srcs[j])) && !OnlyDots(ImageStem(BaseName(srcs[j]))) ==>
      MakeRow(split, category, FileName(category, split, j, srcs[j])) in rows
  }

  predicate RecordedAll(rows: seq<Row>, a: Assignment<Path>, category: string) {
    && Recorded(rows, a.train, category, "train")
    && Recorded(rows, a.val, category, "val")
    && Recorded(rows, a.test, category, "test")
  }

  /** What a complete run produced: the three assignments and the rows of
      `metadata.csv`. */
  datatype Outcome = Outcome(pneumonia: Assignment<Path>, normal: Assignment<Path>,
                             tuberculosis: Assignment<Path>, rows: seq<Row>)

  /** Line 14: one `os.makedirs` call, for the output directory of split
      `si` and category `ci`. */
  method MakeGroupDir(fs: FileSystem, si: nat, ci: nat) returns (ok: bool)
    requires fs.Valid() && si < 3 && ci < 3
    modifies fs
    ensures fs.Valid() && fs.files == old(fs.files)
    ensures OutputDir(Splits[si], Categories[ci]) == GroupDir(3 * si + ci)
    ensures ok <==> NoFileOnPath(fs.files, GroupDir(3 * si + ci))
    ensures fs.dirs == if ok then old(fs.dirs) + Prefixes(GroupDir(3 * si + ci)) else old(fs.dirs)
  {
    GroupIndex(si, ci);
    ok := fs.MakeDirs(OutputDir(Splits[si], Categories[ci]));
  }

  /** The first `g` `os.makedirs` calls succeeded on `files`, and the
      directories are `base` plus what they made. */
  ghost predicate MadeUpTo(files: map<Path, Bytes>, dirs: set<Path>, base: set<Path>, g: nat)
    requires g <= 9
  {
    && (forall h :: 0 <= h < g ==> NoFileOnPath(files, GroupDir(h)))
    && dirs == base + Created(g)
  }

  /** One more successful call extends what was made. */
  lemma MadeStep(files: map<Path, Bytes>, before: set<Path>, after: set<Path>, base: set<Path>, g: nat)
    requires g < 9 && MadeUpTo(files, before, base, g)
    requires NoFileOnPath(files, GroupDir(g)) && after == before + Prefixes(GroupDir(g))
    ensures MadeUpTo(files, after, base, g + 1)
  {
    forall h | 0 <= h < g + 1 ensures NoFileOnPath(files, GroupDir(h)) {
      if h < g {
        assert NoFileOnPath(files, GroupDir(h));
      }
    }
  }

  /** The first `g` calls succeeded and call `g` raised. */
  ghost predicate StoppedAt(files: map<Path, Bytes>, dirs: set<Path>, base: set<Path>, g: nat) {
    g < 9 && MadeUpTo(files, dirs, base, g) && !NoFileOnPath(files, GroupDir(g))
  }

  /** Lines 12-14 for split `si`: the inner loop over the categories. */
  method MakeSplitDirs(fs: FileSystem, si: nat, ghost base: set<Path>) returns (err: Option<Path>)
    requires fs.Valid() && si < 3 && MadeUpTo(fs.files, fs.dirs, base, 3 * si)
    modifies fs
    ensures fs.Valid() && fs.files == old(fs.files)
    ensures err.None? ==> MadeUpTo(fs.files, fs.dirs, base, 3 * si + 3)
    ensures err.Some? ==>
      exists g :: 3 * si <= g < 3 * si + 3 && err.value == GroupDir(g) && StoppedAt(fs.files, fs.dirs, base, g)
  {
    for ci := 0 to 3
      invariant fs.Valid() && fs.files == old(fs.files)
      invariant MadeUpTo(fs.files, fs.dirs, base, 3 * si + ci)
    {
      ghost var g := 3 * si + ci;
      var dir := OutputDir(Splits[si], Categories[ci]);
      label Step:
      var ok := MakeGroupDir(fs, si, ci);
      if !ok {
        assert StoppedAt(fs.files, fs.dirs, base, g);
        return Some(dir);
      }
      MadeStep(fs.files, old@Step(fs.dirs), fs.dirs, base, g);
    }
    return None;
  }

  /** Lines 11-14: `os.makedirs` for each split and category, in order,
      stopping at the first that raises. */
  method CreateOutputDirs(fs: FileSystem) returns (err: Option<Path>)
    requires fs.Valid()
    modifies fs
    ensures fs.Valid() && fs.files == old(fs.files)
    ensures err.None? <==> forall g :: 0 <= g < 9 ==> NoFileOnPath(fs.files, GroupDir(g))
    ensures err.None? ==> fs.dirs == old(fs.dirs) + Created(9)
    ensures err.Some? ==>
      exists g :: 0 <= g < 9 && err.value == GroupDir(g) && !NoFileOnPath(fs.files, GroupDir(g)) &&
        (forall h :: 0 <= h < g ==> NoFileOnPath(fs.files, GroupDir(h))) &&
        fs.dirs == old(fs.dirs) + Created(g)
  {
    ghost var base := fs.dirs;
    for si := 0 to 3
      invariant fs.Valid() && fs.files == old(fs.files)
      invariant MadeUpTo(fs.files, fs.dirs, base, 3 * si)
    {
      err := MakeSplitDirs(fs, si, base);
      if err.Some? {
        return;
      }
    }
    return None;
  }

  /** After the layout is created on a fresh tree, every category is ready
      for its copies. */
  lemma FreshReady(dirs: set<Path>)
    requires forall g, n :: 0 <= g < 9 ==> GroupDir(g) + [n] !in dirs
    ensures CategoryReady(dirs + Created(9), "pneumonia")
    ensures CategoryReady(dirs + Created(9), "tuberculosis")
    ensures CategoryReady(dirs + Created(9), "normal")
  {
    var made := dirs + Created(9);
    CreatedFacts(9);
    LayoutStaysEmpty(dirs);
    forall g | 0 <= g < 9 ensures Ready(made, GroupDir(g)) { }
    CategoryReadyFromGroups(made, 0);
    CategoryReadyFromGroups(made, 1);
    CategoryReadyFromGroups(made, 2);
  }

  /** A category is ready when the groups of its three splits are. */
  lemma CategoryReadyFromGroups(dirs: set<Path>, ci: nat)
    requires ci < 3 && forall g :: 0 <= g < 9 ==> Ready(dirs, GroupDir(g))
    ensures CategoryReady(dirs, Categories[ci])
  {
    GroupIndex(0, ci);
    GroupIndex(1, ci);
    GroupIndex(2, ci);
    assert Ready(dirs, GroupDir(ci)) && Ready(dirs, GroupDir(3 + ci)) && Ready(dirs, GroupDir(6 + ci));
  }

  /** Writing a file outside the nine output directories leaves the rescan's
      result as it was. */
  lemma RescanAfterWrite(files: map<Path, Bytes>, dirs: set<Path>, rows: seq<Row>, path: Path, content: Bytes)
    requires Rescan(files, dirs, rows) && |path| != 5
    ensures Rescan(files[path := content], dirs, rows)
  {
    var after := files[path := content];
    forall h | 0 <= h < 9 ensures ImageEntries(after, dirs, GroupDir(h)) == ImageEntries(files, dirs, GroupDir(h)) {
      forall n ensures n in ChildNames(after.Keys + dirs, GroupDir(h)) <==> n in ChildNames(files.Keys + dirs, GroupDir(h)) {
        assert |GroupDir(h) + [n]| == 5;
      }
    }
    assert Listing(after, dirs) == Listing(files, dirs);
    var parts :| |parts| == 9 && Scanned(files, dirs, rows, parts);
    assert Scanned(after, dirs, rows, parts);
  }

  /** A stored copy that the filter accepts is found by the rescan. */
  lemma RecordedCopy(files: map<Path, Bytes>, dirs: set<Path>, rows: seq<Row>, src: Path, si: nat, ci: nat, j: nat)
    requires si < 3 && ci < 3
    requires Rescan(files, dirs, rows)
    requires Destination(Categories[ci], Splits[si], j, src) in files
    requires IsImageName(BaseName(src)) && !OnlyDots(ImageStem(BaseName(src)))
    ensures MakeRow(Splits[si], Categories[ci], FileName(Categories[ci], Splits[si], j, src)) in rows
  {
    var split, category := Splits[si], Categories[ci];
    var g := 3 * si + ci;
    GroupIndex(si, ci);
    LayoutNamesDotFree();
    var n := FileName(category, split, j, src);
    CopiedNameIsImage(category, split, j, src);
    assert Destination(category, split, j, src) == GroupDir(g) + [n];
    RescanFinds(files, dirs, rows, g, n);
  }

  /** Every copy of a batch that the filter accepts is found by the rescan. */
  lemma RecordedBatch(files: map<Path, Bytes>, dirs: set<Path>, orig: map<Path, Bytes>, rows: seq<Row>,
                      srcs: seq<Path>, si: nat, ci: nat)
    requires si < 3 && ci < 3
    requires Rescan(files, dirs, rows)
    requires Stored(files, orig, srcs, Categories[ci], Splits[si])
    ensures Recorded(rows, srcs, Categories[ci], Splits[si])
  {
    forall j | 0 <= j < |srcs| && IsImageName(BaseName(srcs[j])) && !OnlyDots(ImageStem(BaseName(srcs[j])))
      ensures MakeRow(Splits[si], Categories[ci], FileName(Categories[ci], Splits[si], j, srcs[j])) in rows
    {
      RecordedCopy(files, dirs, rows, srcs[j], si, ci, j);
    }
  }

  lemma RecordedCategory(files: map<Path, Bytes>, dirs: set<Path>, orig: map<Path, Bytes>, rows: seq<Row>,
                         a: Assignment<Path>, ci: nat)
    requires ci < 3
    requires Rescan(files, dirs, rows) && Placed(files, orig, a, Categories[ci])
    ensures RecordedAll(rows, a, Categories[ci])
  {
    RecordedBatch(files, dirs, orig, rows, a.train, 0, ci);
    RecordedBatch(files, dirs, orig, rows, a.val, 1, ci);
    RecordedBatch(files, dirs, orig, rows, a.test, 2, ci);
  }

  /** The scans of the three drawn classes, on a given tree. */
  ghost function Pools(files: map<Path, Bytes>, dirs: set<Path>): (set<Path>, set<Path>, set<Path>) {
    (SourceImages(files, dirs, PneumoniaImagesDir),
     SourceImages(files, dirs, PneumoniaNormalDir),
     SourceImages(files, dirs, TbImagesDir))
  }

  /** Some class would yield fewer than four drawn images. */
  predicate AnyShort(pools: (set<Path>, set<Path>, set<Path>)) {
    var (pneumonia, normal, tb) := pools;
    Short(pneumonia, PneumoniaQuota) || Short(normal, NormalQuota) || Short(tb, TbQuota)
  }

  /** The destinations of every copy of the three assignments. */
  function CopyTargets(pneumonia: Assignment<Path>, normal: Assignment<Path>, tb: Assignment<Path>): set<Path> {
    Targets(pneumonia, "pneumonia") + Targets(normal, "normal") + Targets(tb, "tuberculosis")
  }

  /** `process_pneumonia_data` completed with the draws `pneumonia` and
      `normal`: they are valid draws from their pools, copied with the
      content they have in `orig`, and only their destinations were written
      since `orig`. */
  ghost predicate PneumoniaDoneAt(files: map<Path, Bytes>, orig: map<Path, Bytes>, pools: (set<Path>, set<Path>, set<Path>),
                                  pneumonia: Assignment<Path>, normal: Assignment<Path>) {
    && Drawn(pools.0, pneumonia, PneumoniaQuota) && Drawn(pools.1, normal, NormalQuota)
    && Placed(files, orig, pneumonia, "pneumonia") && Placed(files, orig, normal, "normal")
    && Written(orig, files, Targets(pneumonia, "pneumonia") + Targets(normal, "normal"))
  }

  /** `process_pneumonia_data` completed with some valid draws. */
  ghost predicate PneumoniaDone(files: map<Path, Bytes>, orig: map<Path, Bytes>, pools: (set<Path>, set<Path>, set<Path>)) {
    exists pneumonia, normal :: PneumoniaDoneAt(files, orig, pools, pneumonia, normal)
  }

  /** `process_pneumonia_data` completed with the draws `pneumonia` and
      `normal`, then `e` reports a refused copy of the valid tuberculosis draw
      `tb`; only the three draws' destinations were written since `orig`. */
  ghost predicate TbCopyFailedAfterAt(files: map<Path, Bytes>, dirs: set<Path>, orig: map<Path, Bytes>,
                                      pools: (set<Path>, set<Path>, set<Path>), e: PipelineError,
                                      pneumonia: Assignment<Path>, normal: Assignment<Path>, tb: Assignment<Path>) {
    && Drawn(pools.0, pneumonia, PneumoniaQuota) && Drawn(pools.1, normal, NormalQuota)
    && Drawn(pools.2, tb, TbQuota)
    && Placed(files, orig, pneumonia, "pneumonia") && Placed(files, orig, normal, "normal")
    && Written(orig, files, CopyTargets(pneumonia, normal, tb))
    && FailedCopy(files, dirs, tb, "tuberculosis", e)
  }

  /** `process_tuberculosis_data` raised at a copy after
      `process_pneumonia_data` completed, for some valid draws. */
  ghost predicate TbCopyFailedAfter(files: map<Path, Bytes>, dirs: set<Path>, orig: map<Path, Bytes>,
                                    pools: (set<Path>, set<Path>, set<Path>), e: PipelineError) {
    exists pneumonia, normal, tb :: TbCopyFailedAfterAt(files, dirs, orig, pools, e, pneumonia, normal, tb)
  }

  /** Both datasets were processed with the draws `pneumonia`, `normal` and
      `tb`: they are valid draws from their pools, every image is copied, and
      only their destinations were written since `orig`. */
  ghost predicate CopiedAllAt(files: map<Path, Bytes>, orig: map<Path, Bytes>, pools: (set<Path>, set<Path>, set<Path>),
                              pneumonia: Assignment<Path>, normal: Assignment<Path>, tb: Assignment<Path>) {
    && DrawnAll(pools, pneumonia, normal, tb)
    && PlacedAll(files, orig, pneumonia, normal, tb)
    && Written(orig, files, CopyTargets(pneumonia, normal, tb))
  }

  /** Both datasets were processed, with some valid draws. */
  ghost predicate CopiedAll(files: map<Path, Bytes>, orig: map<Path, Bytes>, pools: (set<Path>, set<Path>, set<Path>)) {
    exists pneumonia, normal, tb :: CopiedAllAt(files, orig, pools, pneumonia, normal, tb)
  }

  /** None of the nine output directories holds a file or a directory. */
  ghost predicate EmptyLayout(files: map<Path, Bytes>, dirs: set<Path>) {
    forall g, n :: 0 <= g < 9 ==> GroupDir(g) + [n] !in files && GroupDir(g) + [n] !in dirs
  }

  /** What `process_pneumonia_data` or `process_tuberculosis_data` raising
      `e` leaves, against the files `orig` before either ran and the pools
      the scans found: a split raises only when a class is short, and the
      tuberculosis split only when neither pneumonia class is; until
      `process_tuberculosis_data` starts only the pneumonia and normal
      directories change, and a failed pneumonia split changes nothing; a
      failed tuberculosis split comes after `process_pneumonia_data`
      completed; a failed copy is explained by `PneumoniaCopyFailed` or
      `TbCopyFailedAfter`. */
  ghost predicate DatasetFailure(files: map<Path, Bytes>, dirs: set<Path>, orig: map<Path, Bytes>,
                                 pools: (set<Path>, set<Path>, set<Path>), e: PipelineError) {
    var (pneumonia, normal, tb) := pools;
    && (FromPneumonia(e) || FromTuberculosis(e))
    && (e.SplitFailed? ==> AnyShort(pools))
    && (e.SplitFailed? ==> (FromTuberculosis(e) <==> !Short(pneumonia, PneumoniaQuota) && !Short(normal, NormalQuota)))
    && (e.SplitFailed? || FromPneumonia(e) ==>
          Untouched(orig, files, CategoryDirs("pneumonia") + CategoryDirs("normal")))
    && (e.SplitFailed? && FromPneumonia(e) ==> files == orig)
    && (e.SplitFailed? && FromTuberculosis(e) ==> PneumoniaDone(files, orig, pools))
    && (e.CopyFailed? && FromPneumonia(e) ==> PneumoniaCopyFailed(files, dirs, orig, pneumonia, normal, e))
    && (e.CopyFailed? && FromTuberculosis(e) ==> TbCopyFailedAfter(files, dirs, orig, pools, e))
  }

  /** The three assignments are valid draws from their pools. */
  ghost predicate DrawnAll(pools: (set<Path>, set<Path>, set<Path>),
                           pneumonia: Assignment<Path>, normal: Assignment<Path>, tb: Assignment<Path>) {
    && Drawn(pools.0, pneumonia, PneumoniaQuota)
    && Drawn(pools.1, normal, NormalQuota)
    && Drawn(pools.2, tb, TbQuota)
  }

  /** Every image of the three assignments is stored at its destination. */
  predicate PlacedAll(files: map<Path, Bytes>, orig: map<Path, Bytes>,
                      pneumonia: Assignment<Path>, normal: Assignment<Path>, tb: Assignment<Path>) {
    && Placed(files, orig, pneumonia, "pneumonia")
    && Placed(files, orig, normal, "normal")
    && Placed(files, orig, tb, "tuberculosis")
  }

  /** `metadata.csv` holds the serialised rescan of the layout, and the rescan
      lists every copy the image filter accepts. */
  ghost predicate Listed(files: map<Path, Bytes>, dirs: set<Path>, csv: seq<Row> -> Bytes, o: Outcome) {
    && Rescan(files, dirs, o.rows)
    && MetadataFile in files && files[MetadataFile] == csv(o.rows)
    && RecordedAll(o.rows, o.pneumonia, "pneumonia")
    && RecordedAll(o.rows, o.tuberculosis, "tuberculosis")
    && RecordedAll(o.rows, o.normal, "normal")
  }

  /** A completed run with the outcome `o`, against the files `orig` before
      it and the pools the scans found there: no class was short, the
      draws are valid, every image is copied and its copy listed in
      `metadata.csv`, and only the copies' destinations and `metadata.csv`
      were written since `orig`. */
  ghost predicate Completed(files: map<Path, Bytes>, dirs: set<Path>, orig: map<Path, Bytes>,
                            pools: (set<Path>, set<Path>, set<Path>), csv: seq<Row> -> Bytes, o: Outcome) {
    && !AnyShort(pools)
    && DrawnAll(pools, o.pneumonia, o.normal, o.tuberculosis)
    && PlacedAll(files, orig, o.pneumonia, o.normal, o.tuberculosis)
    && Listed(files, dirs, csv, o)
    && Written(orig, files, CopyTargets(o.pneumonia, o.normal, o.tuberculosis) + {MetadataFile})
  }

  /** Every row of the outcome names the destination of one of its copies. */
  predicate RowsCopied(o: Outcome) {
    forall k :: 0 <= k < |o.rows| ==> o.rows[k].filepath in CopyTargets(o.pneumonia, o.normal, o.tuberculosis)
  }

  /** Writing the rescan after both datasets were copied completes the run;
      on a tree whose nine directories held nothing, the rows are exactly
      the copies' rows. */
  lemma CompletedByWrite(orig: map<Path, Bytes>, copied: map<Path, Bytes>, files: map<Path, Bytes>, dirs: set<Path>,
                         pools: (set<Path>, set<Path>, set<Path>), csv: seq<Row> -> Bytes, o: Outcome)
    requires !AnyShort(pools) && DrawnAll(pools, o.pneumonia, o.normal, o.tuberculosis)
    requires PlacedAll(copied, orig, o.pneumonia, o.normal, o.tuberculosis)
    requires Written(orig, copied, CopyTargets(o.pneumonia, o.normal, o.tuberculosis))
    requires files == copied[MetadataFile := csv(o.rows)] && Rescan(files, dirs, o.rows)
    ensures Completed(files, dirs, orig, pools, csv, o)
    ensures EmptyLayout(orig, dirs) ==> RowsCopied(o)
  {
    WriteUntouched(copied, files, MetadataFile, csv(o.rows));
    WrittenTrans(orig, copied, files, CopyTargets(o.pneumonia, o.normal, o.tuberculosis), {MetadataFile});
    PlacedAllKept(copied, files, orig, o.pneumonia, o.normal, o.tuberculosis);
    ListedAll(files, dirs, orig, csv, o);
    if EmptyLayout(orig, dirs) {
      RowsAreCopies(orig, files, dirs, o.rows, CopyTargets(o.pneumonia, o.normal, o.tuberculosis));
    }
  }

  /** Writing `metadata.csv` keeps every placement. */
  lemma PlacedAllKept(before: map<Path, Bytes>, after: map<Path, Bytes>, orig: map<Path, Bytes>,
                      pneumonia: Assignment<Path>, normal: Assignment<Path>, tb: Assignment<Path>)
    requires PlacedAll(before, orig, pneumonia, normal, tb) && Untouched(before, after, {ProcessedRoot})
    ensures PlacedAll(after, orig, pneumonia, normal, tb)
  {
    KeptByWrite(before, after, orig, pneumonia, "pneumonia");
    KeptByWrite(before, after, orig, normal, "normal");
    KeptByWrite(before, after, orig, tb, "tuberculosis");
  }

  /** The rescan written after the copies lists all of them. */
  lemma ListedAll(files: map<Path, Bytes>, dirs: set<Path>, orig: map<Path, Bytes>, csv: seq<Row> -> Bytes, o: Outcome)
    requires PlacedAll(files, orig, o.pneumonia, o.normal, o.tuberculosis)
    requires Rescan(files, dirs, o.rows) && MetadataFile in files && files[MetadataFile] == csv(o.rows)
    ensures Listed(files, dirs, csv, o)
  {
    RecordedCategory(files, dirs, orig, o.rows, o.pneumonia, 0);
    RecordedCategory(files, dirs, orig, o.rows, o.tuberculosis, 1);
    RecordedCategory(files, dirs, orig, o.rows, o.normal, 2);
  }

  /** Lines 17-18: `process_pneumonia_data` then `process_tuberculosis_data`.
      Copying pneumonia images does not change what the tuberculosis scan
      finds, so all three draws are stated against the tree before either. */
  method ProcessDatasets(fs: FileSystem, pneumoniaDraw: Sampler, normalDraw: Sampler, tbDraw: Sampler, shuffle: Shuffle)
    returns (r: Result<(Assignment<Path>, Assignment<Path>, Assignment<Path>), PipelineError>)
    requires fs.Valid() && ValidSampler(pneumoniaDraw) && ValidSampler(normalDraw) && ValidSampler(tbDraw)
    requires ValidShuffle(shuffle)
    modifies fs
    ensures fs.Valid() && fs.dirs == old(fs.dirs)
    ensures Untouched(old(fs.files), fs.files,
                      CategoryDirs("pneumonia") + CategoryDirs("normal") + CategoryDirs("tuberculosis"))
    ensures var (pneumonia, normal, tb) := Pools(old(fs.files), old(fs.dirs));
      Short(pneumonia, PneumoniaQuota) || Short(normal, NormalQuota) ==> r.Failure? && r.error.SplitFailed?
    ensures r.Failure? ==> FromPneumonia(r.error) || FromTuberculosis(r.error)
    ensures r.Failure? && r.error.SplitFailed? ==> AnyShort(Pools(old(fs.files), old(fs.dirs)))
    ensures var (pneumonia, normal, tb) := Pools(old(fs.files), old(fs.dirs));
      r.Failure? && r.error.SplitFailed? ==>
        (FromTuberculosis(r.error) <==> !Short(pneumonia, PneumoniaQuota) && !Short(normal, NormalQuota))
    ensures r.Failure? && (r.error.SplitFailed? || FromPneumonia(r.error)) ==>
      Untouched(old(fs.files), fs.files, CategoryDirs("pneumonia") + CategoryDirs("normal"))
    ensures r.Failure? && r.error.SplitFailed? && FromPneumonia(r.error) ==> fs.files == old(fs.files)
    ensures r.Failure? && r.error.SplitFailed? && FromTuberculosis(r.error) ==>
      PneumoniaDone(fs.files, old(fs.files), Pools(old(fs.files), old(fs.dirs)))
    ensures var (pneumonia, normal, tb) := Pools(old(fs.files), old(fs.dirs));
      r.Failure? && r.error.CopyFailed? && FromPneumonia(r.error) ==>
        PneumoniaCopyFailed(fs.files, fs.dirs, old(fs.files), pneumonia, normal, r.error)
    ensures r.Failure? && r.error.CopyFailed? && FromTuberculosis(r.error) ==>
      TbCopyFailedAfter(fs.files, fs.dirs, old(fs.files), Pools(old(fs.files), old(fs.dirs)), r.error)
    ensures r.Success? ==>
      && !AnyShort(Pools(old(fs.files), old(fs.dirs)))
      && DrawnAll(Pools(old(fs.files), old(fs.dirs)), r.value.0, r.value.1, r.value.2)
      && PlacedAll(fs.files, old(fs.files), r.value.0, r.value.1, r.value.2)
      && Written(old(fs.files), fs.files, CopyTargets(r.value.0, r.value.1, r.value.2))
    ensures CategoryReady(fs.dirs, "pneumonia") && CategoryReady(fs.dirs, "normal") &&
            CategoryReady(fs.dirs, "tuberculosis") ==>
      (r.Success? <==> !AnyShort(Pools(old(fs.files), old(fs.dirs))))
  {
    ghost var f0 := fs.files;
    ghost var pnDirs := CategoryDirs("pneumonia") + CategoryDirs("normal");
    var pn := ProcessPneumonia(fs, pneumoniaDraw, normalDraw, shuffle);
    UntouchedWiden(f0, fs.files, pnDirs, pnDirs + CategoryDirs("tuberculosis"));
    if pn.Failure? {
      return Failure(pn.error);
    }
    ghost var f1 := fs.files;
    CategoryDirsProcessed("pneumonia");
    CategoryDirsProcessed("normal");
    RawDirs();
    SourceImagesKept(f0, f1, fs.dirs, fs.dirs, pnDirs, TbImagesDir);
    var tb := ProcessTuberculosis(fs, tbDraw, shuffle);
    UntouchedTrans(f0, f1, fs.files, pnDirs, CategoryDirs("tuberculosis"));
    var (pneumonia, normal) := pn.value;
    CategoryDirsDisjoint("tuberculosis", "pneumonia");
    CategoryDirsDisjoint("tuberculosis", "normal");
    PlacedKept(f1, fs.files, CategoryDirs("tuberculosis"), f0, pneumonia, "pneumonia");
    PlacedKept(f1, fs.files, CategoryDirs("tuberculosis"), f0, normal, "normal");
    ghost var pnTargets := Targets(pneumonia, "pneumonia") + Targets(normal, "normal");
    if tb.Failure? {
      if tb.error.CopyFailed? {
        ghost var t :| TbCopyFailedAt(fs.files, fs.dirs, f1, SourceImages(f1, fs.dirs, TbImagesDir), tb.error, t);
        WrittenTrans(f0, f1, fs.files, pnTargets, Targets(t, "tuberculosis"));
        assert TbCopyFailedAfterAt(fs.files, fs.dirs, f0, Pools(f0, fs.dirs), tb.error, pneumonia, normal, t);
      } else {
        assert PneumoniaDoneAt(fs.files, f0, Pools(f0, fs.dirs), pneumonia, normal);
      }
      return Failure(tb.error);
    }
    WrittenTrans(f0, f1, fs.files, pnTargets, Targets(tb.value, "tuberculosis"));
    DrawnSources(f0, fs.dirs, TbImagesDir, tb.value, TbQuota);
    PlacedRebase(fs.files, f1, f0, pnDirs, tb.value, "tuberculosis");
    assert DrawnAll(Pools(f0, fs.dirs), pneumonia, normal, tb.value);
    r := Success((pneumonia, normal, tb.value));
  }

  /** Lines 112-141, `create_metadata_csv` as a whole: rescan the layout,
      then write the rows to `data/processed/metadata.csv`. With the nine
      directories present the rescan cannot raise; the write raises exactly
      when a directory stands at the file's path. */
  method WriteMetadata(fs: FileSystem, csv: seq<Row> -> Bytes) returns (r: Result<seq<Row>, PipelineError>)
    requires fs.Valid() && ProcessedRoot in fs.dirs
    requires forall g :: 0 <= g < 9 ==> GroupDir(g) in fs.dirs
    modifies fs
    ensures fs.Valid() && fs.dirs == old(fs.dirs)
    ensures r.Failure? <==> MetadataFile in fs.dirs
    ensures r.Failure? ==> r.error == WriteFailed(MetadataFile) && fs.files == old(fs.files)
    ensures r.Success? ==>
      fs.files == old(fs.files)[MetadataFile := csv(r.value)] && Rescan(fs.files, fs.dirs, r.value)
  {
    var rows := CreateMetadata(fs);
    assert rows.Success?;
    var metadata := rows.value;
    var ok := fs.WriteFile(MetadataFile, csv(metadata));
    if !ok {
      return Failure(WriteFailed(MetadataFile));
    }
    RescanAfterWrite(old(fs.files), fs.dirs, metadata, MetadataFile, csv(metadata));
    r := Success(metadata);
  }

  /** Lines 17-21 on a tree that already has the layout. */
  method Assemble(fs: FileSystem, pneumoniaDraw: Sampler, normalDraw: Sampler, tbDraw: Sampler,
                  shuffle: Shuffle, csv: seq<Row> -> Bytes)
    returns (r: Result<Outcome, PipelineError>)
    requires fs.Valid() && ValidSampler(pneumoniaDraw) && ValidSampler(normalDraw) && ValidSampler(tbDraw)
    requires ValidShuffle(shuffle)
    requires ProcessedRoot in fs.dirs && forall g :: 0 <= g < 9 ==> GroupDir(g) in fs.dirs
    modifies fs
    ensures fs.Valid() && fs.dirs == old(fs.dirs)
    ensures Untouched(old(fs.files), fs.files, OutputDirs())
    ensures var (pneumonia, normal, tb) := Pools(old(fs.files), old(fs.dirs));
      Short(pneumonia, PneumoniaQuota) || Short(normal, NormalQuota) ==> r.Failure? && r.error.SplitFailed?
    ensures r.Failure? && !r.error.WriteFailed? ==>
      DatasetFailure(fs.files, fs.dirs, old(fs.files), Pools(old(fs.files), old(fs.dirs)), r.error)
    ensures r.Failure? && r.error.WriteFailed? ==>
      MetadataFile in fs.dirs && CopiedAll(fs.files, old(fs.files), Pools(old(fs.files), old(fs.dirs)))
    ensures CategoryReady(fs.dirs, "pneumonia") && CategoryReady(fs.dirs, "normal") &&
            CategoryReady(fs.dirs, "tuberculosis") && MetadataFile !in fs.dirs ==>
      (r.Success? <==> !AnyShort(Pools(old(fs.files), old(fs.dirs))))
    ensures r.Success? ==> Completed(fs.files, fs.dirs, old(fs.files), Pools(old(fs.files), old(fs.dirs)), csv, r.value)
    ensures r.Success? && EmptyLayout(old(fs.files), old(fs.dirs)) ==> RowsCopied(r.value)
  {
    ghost var f0 := fs.files;
    var processed := ProcessDatasets(fs, pneumoniaDraw, normalDraw, tbDraw, shuffle);
    UntouchedWiden(f0, fs.files, CategoryDirs("pneumonia") + CategoryDirs("normal") + CategoryDirs("tuberculosis"),
                   OutputDirs());
    if processed.Failure? {
      assert DatasetFailure(fs.files, fs.dirs, f0, Pools(f0, fs.dirs), processed.error);
      return Failure(processed.error);
    }
    var (pneumonia, normal, tb) := processed.value;
    ghost var f1 := fs.files;

    var written := WriteMetadata(fs, csv);
    MetadataFrame(f0, f1, fs.files, if written.Success? then csv(written.value) else []);
    if written.Failure? {
      assert CopiedAllAt(fs.files, f0, Pools(f0, fs.dirs), pneumonia, normal, tb);
      return Failure(written.error);
    }
    var outcome := Outcome(pneumonia, normal, tb, written.value);
    CompletedByWrite(f0, f1, fs.files, fs.dirs, Pools(f0, fs.dirs), csv, outcome);
    r := Success(outcome);
  }

  /** Lines 7-23. The random choices are parameters: a sampler for each
      `random.sample` call and the permutation behind `random_state=42`; the
      CSV serialisation of the rows is the parameter `csv`. Every run changes
      files only inside the layout, raises only for the reasons listed, and
      on a fresh tree completes exactly when every class yields at least
      four images; a completed run leaves each drawn image copied, and its
      copy listed, and `metadata.csv` holding the rescan of the layout. */
  method PreprocessData(fs: FileSystem, pneumoniaDraw: Sampler, normalDraw: Sampler, tbDraw: Sampler,
                        shuffle: Shuffle, csv: seq<Row> -> Bytes)
    returns (r: Result<Outcome, PipelineError>)
    requires fs.Valid() && ValidSampler(pneumoniaDraw) && ValidSampler(normalDraw) && ValidSampler(tbDraw)
    requires ValidShuffle(shuffle)
    modifies fs
    ensures fs.Valid()
    ensures Untouched(old(fs.files), fs.files, OutputDirs())
    ensures (r.Failure? && r.error.MakeDirsFailed?) <==>
      !forall g :: 0 <= g < 9 ==> NoFileOnPath(old(fs.files), GroupDir(g))
    ensures r.Failure? && r.error.MakeDirsFailed? ==> fs.files == old(fs.files)
    ensures r.Failure? && r.error.MakeDirsFailed? ==>
      exists g :: 0 <= g < 9 && r.error.dir == GroupDir(g) && !NoFileOnPath(old(fs.files), GroupDir(g)) &&
        (forall h :: 0 <= h < g ==> NoFileOnPath(old(fs.files), GroupDir(h))) &&
        fs.dirs == old(fs.dirs) + Created(g)
    ensures !(r.Failure? && r.error.MakeDirsFailed?) ==> fs.dirs == old(fs.dirs) + Created(9)
    ensures var (pneumonia, normal, tb) := Pools(old(fs.files), old(fs.dirs));
      Short(pneumonia, PneumoniaQuota) || Short(normal, NormalQuota) ==>
        r.Failure? && (r.error.MakeDirsFailed? || r.error.SplitFailed?)
    ensures r.Failure? && !r.error.MakeDirsFailed? && !r.error.WriteFailed? ==>
      DatasetFailure(fs.files, fs.dirs, old(fs.files), Pools(old(fs.files), old(fs.dirs)), r.error)
    ensures r.Failure? && r.error.WriteFailed? ==>
      MetadataFile in old(fs.dirs) && CopiedAll(fs.files, old(fs.files), Pools(old(fs.files), old(fs.dirs)))
    ensures Fresh(old(fs.files), old(fs.dirs)) ==> (r.Success? <==> !AnyShort(Pools(old(fs.files), old(fs.dirs))))
    ensures r.Success? ==> Completed(fs.files, fs.dirs, old(fs.files), Pools(old(fs.files), old(fs.dirs)), csv, r.value)
    ensures r.Success? && EmptyLayout(old(fs.files), old(fs.dirs)) ==> RowsCopied(r.value)
  {
    ghost var f0, d0 := fs.files, fs.dirs;
    var made := CreateOutputDirs(fs);
    if made.Some? {
      return Failure(MakeDirsFailed(made.value));
    }
    LayoutMade(f0, d0);
    r := Assemble(fs, pneumoniaDraw, normalDraw, tbDraw, shuffle, csv);
  }

  /** What creating the layout gives `Assemble`: the directories it needs,
      the same raw scans, no new `metadata.csv` directory, and on a fresh
      tree every category ready and every output directory still empty. */
  lemma LayoutMade(files: map<Path, Bytes>, dirs: set<Path>)
    ensures ProcessedRoot in dirs + Created(9) && forall g :: 0 <= g < 9 ==> GroupDir(g) in dirs + Created(9)
    ensures Pools(files, dirs + Created(9)) == Pools(files, dirs)
    ensures MetadataFile in dirs + Created(9) ==> MetadataFile in dirs
    ensures Fresh(files, dirs) ==>
      CategoryReady(dirs + Created(9), "pneumonia") && CategoryReady(dirs + Created(9), "normal") &&
      CategoryReady(dirs + Created(9), "tuberculosis") && MetadataFile !in dirs + Created(9)
    ensures EmptyLayout(files, dirs) ==> EmptyLayout(files, dirs + Created(9))
  {
    CreatedFacts(9);
    PoolsKept(files, dirs);
    if Fresh(files, dirs) {
      FreshReady(dirs);
    }
    if EmptyLayout(files, dirs) {
      LayoutStaysEmpty(dirs);
    }
  }

  /** Creating the layout puts nothing inside the nine output directories. */
  lemma LayoutStaysEmpty(dirs: set<Path>)
    requires forall g, n :: 0 <= g < 9 ==> GroupDir(g) + [n] !in dirs
    ensures forall g, n :: 0 <= g < 9 ==> GroupDir(g) + [n] !in dirs + Created(9)
  {
    CreatedFacts(9);
    forall g, n | 0 <= g < 9 ensures GroupDir(g) + [n] !in dirs + Created(9) {
      assert |GroupDir(g) + [n]| == 5;
    }
  }

  /** When the nine directories held nothing before, every entry the rescan
      finds was written since, so every row names the destination of a
      copy: `metadata.csv` is the only other path written. */
  lemma RowsAreCopies(orig: map<Path, Bytes>, files: map<Path, Bytes>, dirs: set<Path>, rows: seq<Row>, targets: set<Path>)
    requires Rescan(files, dirs, rows)
    requires Written(orig, files, targets + {MetadataFile})
    requires forall g, n :: 0 <= g < 9 ==> GroupDir(g) + [n] !in orig && GroupDir(g) + [n] !in dirs
    ensures forall k :: 0 <= k < |rows| ==> rows[k].filepath in targets
  {
    RescanRowFacts(files, dirs, rows);
    forall k | 0 <= k < |rows| ensures rows[k].filepath in targets {
      var g := GroupOf(rows[k]);
      assert rows[k].filepath == GroupDir(g) + [rows[k].imageId];
    }
  }

  /** Creating the layout does not change what the raw scans find. */
  lemma PoolsKept(files: map<Path, Bytes>, dirs: set<Path>)
    ensures Pools(files, dirs + Created(9)) == Pools(files, dirs)
  {
    CreatedFacts(9);
    RawDirs();
    SourceImagesKept(files, files, dirs, dirs + Created(9), {}, PneumoniaImagesDir);
    SourceImagesKept(files, files, dirs, dirs + Created(9), {}, PneumoniaNormalDir);
    SourceImagesKept(files, files, dirs, dirs + Created(9), {}, TbImagesDir);
  }

  /** Writing `metadata.csv`, done or not, after the copies keeps every
      change since `orig` inside the output directories. */
  lemma MetadataFrame(orig: map<Path, Bytes>, copied: map<Path, Bytes>, after: map<Path, Bytes>, content: Bytes)
    requires Untouched(orig, copied, OutputDirs())
    requires after == copied || after == copied[MetadataFile := content]
    ensures Untouched(orig, after, OutputDirs())
  {
    WriteUntouched(copied, after, MetadataFile, content);
    UntouchedTrans(orig, copied, after, OutputDirs(), {ProcessedRoot});
    UntouchedWiden(orig, after, OutputDirs() + {ProcessedRoot}, OutputDirs());
  }

  /** A write, done or not, changes at most a file of the target's directory. */
  lemma WriteUntouched(before: map<Path, Bytes>, after: map<Path, Bytes>, path: Path, content: Bytes)
    requires path == MetadataFile
    requires after == before || after == before[path := content]
    ensures Untouched(before, after, {ProcessedRoot})
    ensures Written(before, after, {path})
  {
    assert Parent(path) == ProcessedRoot;
  }

  /** Writing `metadata.csv` keeps every placement. */
  lemma KeptByWrite(before: map<Path, Bytes>, after: map<Path, Bytes>, orig: map<Path, Bytes>,
                    a: Assignment<Path>, category: string)
    requires Placed(before, orig, a, category) && Untouched(before, after, {ProcessedRoot})
    ensures Placed(after, orig, a, category)
  {
    assert {ProcessedRoot} !! CategoryDirs(category);
    PlacedKept(before, after, {ProcessedRoot}, orig, a, category);
  }
}

=== FILE: placement.dfy ===
/** What a sequence of `copy_images` calls does to the files, stated against
    the files before the first call: which paths may change, and where each
    copied image ends up. */
module Placement {
  import opened Wrappers
  import opened FileSystem
  import opened Layout
  import opened Selection
  import opened Copying

  /** `d` lies under `data/processed`. */
  predicate InProcessed(d: Path) {
    |d| >= 2 && d[..2] == ProcessedRoot
  }

  /** Going from `before` to `after`, only files directly in a directory of
      `out` were added or overwritten; every other file kept its content, and
      no file went away. */
  predicate Untouched(before: map<Path, Bytes>, after: map<Path, Bytes>, out: set<Path>) {
    && (forall p :: p in before ==> p in after)
    && (forall p :: p in before && (p == [] || Parent(p) !in out) ==> after[p] == before[p])
    && (forall p :: p in after && p !in before ==> p != [] && Parent(p) in out)
  }

  /** Going from `before` to `after`, files were added or overwritten only
      at `paths`; every other file kept its content, and no file went away. */
  predicate Written(before: map<Path, Bytes>, after: map<Path, Bytes>, paths: set<Path>) {
    && (forall p :: p in before ==> p in after)
    && (forall p :: p in before && p !in paths ==> after[p] == before[p])
    && (forall p :: p in after && p !in before ==> p in paths)
  }

  /** Position `j` of `srcs` was copied to its destination for `category` and
      `split`: the destination holds the bytes the source had in `orig`. */
  predicate Stored(files: map<Path, Bytes>, orig: map<Path, Bytes>, srcs: seq<Path>, category: string, split: string) {
    forall j :: 0 <= j < |srcs| ==>
      srcs[j] in orig &&
      Destination(category, split, j, srcs[j]) in files &&
      files[Destination(category, split, j, srcs[j])] == orig[srcs[j]]
  }

  /** Sources that are files of `orig` outside `data/processed`. */
  predicate Sources(orig: map<Path, Bytes>, srcs: seq<Path>) {
    forall j :: 0 <= j < |srcs| ==> srcs[j] in orig && srcs[j] != [] && !InProcessed(Parent(srcs[j]))
  }

  /** The output directory exists and holds no directory: every copy into it
      can then succeed. */
  ghost predicate Ready(dirs: set<Path>, dir: Path) {
    dir in dirs && forall n :: dir + [n] !in dirs
  }

  lemma UntouchedRefl(files: map<Path, Bytes>)
    ensures Untouched(files, files, {})
  {
  }

  /** A later batch leaves earlier destinations alone when it writes to
      another directory. */
  lemma StoredKept(before: map<Path, Bytes>, after: map<Path, Bytes>, out: set<Path>,
                   orig: map<Path, Bytes>, srcs: seq<Path>, category: string, split: string)
    requires Stored(before, orig, srcs, category, split)
    requires Untouched(before, after, out)
    requires OutputDir(split, category) !in out
    ensures Stored(after, orig, srcs, category, split)
  {
    forall j | 0 <= j < |srcs|
      ensures Destination(category, split, j, srcs[j]) in after
      ensures after[Destination(category, split, j, srcs[j])] == orig[srcs[j]]
    {
      var d := Destination(category, split, j, srcs[j]);
      assert Parent(d) == OutputDir(split, category);
    }
  }

  /** One `copy_images` call, seen from the files `orig` before the whole
      sequence of calls: if earlier calls only wrote into `out`, this one adds
      its own directory to what may have changed; when it completes, every
      source is stored at its destination; and when its directory is ready, it
      completes. */
  lemma CopyStep(orig: map<Path, Bytes>, files: map<Path, Bytes>, dirs: set<Path>, out: set<Path>,
                 srcs: seq<Path>, category: string, split: string, run: CopyRun)
    requires Untouched(orig, files, out)
    requires forall d :: d in out ==> InProcessed(d)
    requires Sources(orig, srcs)
    requires run == CopyFrom(files, dirs, srcs, Destinations(srcs, category, split), 0)
    ensures Untouched(orig, run.files, out + {OutputDir(split, category)})
    ensures run.failedAt.None? ==> Stored(run.files, orig, srcs, category, split)
    ensures Ready(dirs, OutputDir(split, category)) ==> run.failedAt.None?
    ensures Written(files, run.files, Elements(Destinations(srcs, category, split)))
  {
    var dir := OutputDir(split, category);
    var dsts := Destinations(srcs, category, split);
    forall j | 0 <= j < |srcs| ensures Parent(srcs[j]) != dir && srcs[j] in files && files[srcs[j]] == orig[srcs[j]] {
      assert InProcessed(dir);
    }
    DestinationsFacts(srcs, category, split);
    CopyFromFrame(files, dirs, srcs, dsts, 0);
    CopyFromContents(files, dirs, srcs, dsts, 0);
    var stop := Stop(run, |srcs|);
    assert forall p :: p in Elements(dsts[0..stop]) ==> p != [] && Parent(p) == dir && p in Elements(dsts);
  }

  /** Two runs of changes compose: what may change is the union. */
  lemma UntouchedTrans(a: map<Path, Bytes>, b: map<Path, Bytes>, c: map<Path, Bytes>, x: set<Path>, y: set<Path>)
    requires Untouched(a, b, x) && Untouched(b, c, y)
    ensures Untouched(a, c, x + y)
  {
  }

  /** Sources outside `data/processed` survive changes made inside it, with
      their content. */
  lemma SourcesKept(orig: map<Path, Bytes>, files: map<Path, Bytes>, out: set<Path>, srcs: seq<Path>)
    requires Untouched(orig, files, out) && (forall d :: d in out ==> InProcessed(d))
    requires Sources(orig, srcs)
    ensures Sources(files, srcs)
    ensures forall j :: 0 <= j < |srcs| ==> files[srcs[j]] == orig[srcs[j]]
  {
    forall j | 0 <= j < |srcs| ensures Parent(srcs[j]) !in out && files[srcs[j]] == orig[srcs[j]] {
      assert !InProcessed(Parent(srcs[j]));
    }
  }

  /** Copies stored against an intermediate state are stored against the
      original one when the sources were not changed in between. */
  lemma StoredRebase(files: map<Path, Bytes>, mid: map<Path, Bytes>, orig: map<Path, Bytes>, out: set<Path>,
                     srcs: seq<Path>, category: string, split: string)
    requires Stored(files, mid, srcs, category, split)
    requires Untouched(orig, mid, out) && (forall d :: d in out ==> InProcessed(d))
    requires Sources(orig, srcs)
    ensures Stored(files, orig, srcs, category, split)
  {
    SourcesKept(orig, mid, out, srcs);
  }

  /** Two runs of writes compose: the paths written are the union. */
  lemma WrittenTrans(a: map<Path, Bytes>, b: map<Path, Bytes>, c: map<Path, Bytes>, x: set<Path>, y: set<Path>)
    requires Written(a, b, x) && Written(b, c, y)
    ensures Written(a, c, x + y)
  {
  }

  /** Allowing more paths to change keeps what was shown. */
  lemma WrittenWiden(before: map<Path, Bytes>, after: map<Path, Bytes>, paths: set<Path>, wider: set<Path>)
    requires Written(before, after, paths) && paths <= wider
    ensures Written(before, after, wider)
  {
  }

  /** Allowing more directories to change keeps what was shown. */
  lemma UntouchedWiden(before: map<Path, Bytes>, after: map<Path, Bytes>, out: set<Path>, wider: set<Path>)
    requires Untouched(before, after, out) && out <= wider
    ensures Untouched(before, after, wider)
  {
  }
}

=== FILE: scanning.dfy ===
/** The scanning loops of the two dataset procedures: walk a source
    directory and keep the files whose names carry an image suffix. */
module Scanning {
  import opened FileSystem
  import opened Naming
  import opened Selection

  /** Lines 33-36, and in the same form 40-43, 73-76 and 80-83: every file
      `os.walk(top)` reports whose name ends in `.jpeg`, `.jpg` or `.png`
      (case-sensitive), each once. The order of the walk is not specified, so
      the loop takes the walked files in an arbitrary order. */
  method CollectImages(fs: FileSystem, top: Path) returns (images: seq<Path>)
    ensures Distinct(images)
    ensures forall p :: p in images <==>
      top in fs.dirs && p in fs.files && Below(p, top) && IsImageName(BaseName(p))
  {
    images := [];
    var walked := fs.WalkFiles(top);
    var pending := walked;
    while pending != {}
      invariant pending <= walked
      invariant Distinct(images)
      invariant forall p :: p in images <==> p in walked - pending && IsImageName(BaseName(p))
      decreases pending
    {
      var file :| file in pending;
      pending := pending - {file};
      if IsImageName(BaseName(file)) {
        images := images + [file];
      }
    }
  }
}

=== FILE: selection.dfy ===
/** The two random steps of the pipeline: `random.sample` of a per-class quota
    from a scanned pool, and the two-stage `train_test_split` that cuts each
    sample into train, val and test. The random choices are parameters, so
    every property below holds for every choice the generators could make. */
module Selection {
  import opened Wrappers

  predicate Distinct<T(==)>(s: seq<T>) {
    forall i, j :: 0 <= i < j < |s| ==> s[i] != s[j]
  }

  function Elements<T(==)>(s: seq<T>): set<T> {
    set x | x in s
  }

  function Min(a: nat, b: nat): nat { if a < b then a else b }

  /** `idx` holds distinct positions of a sequence of length `n`. */
  predicate IsSelection(idx: seq<nat>, n: nat) {
    (forall k :: 0 <= k < |idx| ==> idx[k] < n) && Distinct(idx)
  }

  /** `idx` is a reordering of the positions `0 .. n-1`. */
  predicate IsPermutation(idx: seq<nat>, n: nat) {
    |idx| == n && IsSelection(idx, n)
  }

  /** The items at the given positions, in the order of the positions. */
  function Pick<T>(items: seq<T>, idx: seq<nat>): (r: seq<T>)
    requires forall k :: 0 <= k < |idx| ==> idx[k] < |items|
    ensures |r| == |idx| && forall k :: 0 <= k < |idx| ==> r[k] == items[idx[k]]
  {
    seq(|idx|, k requires 0 <= k < |idx| => items[idx[k]])
  }

  /** A concatenation is duplicate-free exactly when both parts are and they
      share no element. */
  lemma DistinctConcat<T>(x: seq<T>, y: seq<T>)
    ensures Distinct(x + y) <==> Distinct(x) && Distinct(y) && Elements(x) !! Elements(y)
  {
    if Distinct(x) && Distinct(y) && Elements(x) !! Elements(y) {
      forall i, j | 0 <= i < j < |x + y| ensures (x + y)[i] != (x + y)[j] {
        if j < |x| {
        } else if i >= |x| {
          assert (x + y)[i] == y[i - |x|] && (x + y)[j] == y[j - |x|];
        } else {
          assert (x + y)[i] in Elements(x) && (x + y)[j] in Elements(y);
        }
      }
    }
    if Distinct(x + y) {
      forall i, j | 0 <= i < j < |x| ensures x[i] != x[j] {
        assert x[i] == (x + y)[i] && x[j] == (x + y)[j];
      }
      forall i, j | 0 <= i < j < |y| ensures y[i] != y[j] {
        assert y[i] == (x + y)[|x| + i] && y[j] == (x + y)[|x| + j];
      }
      forall i, j | 0 <= i < |x| && 0 <= j < |y| ensures x[i] != y[j] {
        assert x[i] == (x + y)[i] && y[j] == (x + y)[|x| + j];
      }
    }
  }

  lemma {:induction false} DistinctCard<T>(s: seq<T>)
    requires Distinct(s)
    ensures |Elements(s)| == |s|
  {
    if s != [] {
      var t := s[..|s| - 1];
      assert s == t + [s[|s| - 1]];
      assert Elements(s) == Elements(t) + {s[|s| - 1]};
      assert s[|s| - 1] !in Elements(t);
      DistinctCard(t);
    }
  }

  /** The positions `0 .. n-1`. */
  function Range(n: nat): (r: set<nat>)
    ensures forall i: nat :: i in r <==> i < n
    ensures |r| == n
  {
    if n == 0 then {} else Range(n - 1) + {n - 1}
  }

  lemma {:induction false} SubsetCard<T>(a: set<T>, b: set<T>)
    requires a <= b
    ensures |a| <= |b|
  {
    if a != {} {
      var x :| x in a;
      SubsetCard(a - {x}, b - {x});
    }
  }

  /** A permutation of `0 .. n-1` reaches every position (pigeonhole). */
  lemma PermutationCovers(idx: seq<nat>, n: nat)
    requires IsPermutation(idx, n)
    ensures Elements(idx) == Range(n)
  {
    DistinctCard(idx);
    if j :| j in Range(n) && j !in Elements(idx) {
      SubsetCard(Elements(idx), Range(n) - {j});
      assert false;
    }
  }

  /** Picking distinct positions of a duplicate-free sequence yields a
      duplicate-free sub-collection of it; picking all positions yields
      exactly its elements. */
  lemma PickFacts<T>(items: seq<T>, idx: seq<nat>)
    requires IsSelection(idx, |items|)
    ensures Elements(Pick(items, idx)) <= Elements(items)
    ensures Distinct(items) ==> Distinct(Pick(items, idx))
    ensures |idx| == |items| ==> Elements(Pick(items, idx)) == Elements(items)
  {
    var r := Pick(items, idx);
    if |idx| == |items| {
      PermutationCovers(idx, |items|);
      forall x | x in Elements(items) ensures x in Elements(r) {
        var i :| 0 <= i < |items| && items[i] == x;
        assert i in Range(|items|);
        var k :| 0 <= k < |idx| && idx[k] == i;
        assert r[k] == x;
      }
    }
  }

  /** The random choice behind `random.sample(population, k)`: for a population
      of size `n` and a `k <= n`, `k` distinct positions. The script never seeds
      `random`, so every call to `random.sample` draws independently; the model
      gives every call a sampler of its own. */
  type Sampler = (nat, nat) -> seq<nat>

  ghost predicate ValidSampler(draw: Sampler) {
    forall n: nat, k: nat :: k <= n ==> |draw(n, k)| == k && IsSelection(draw(n, k), n)
  }

  /** `random.sample(pool, min(quota, len(pool)))`: exactly `min(quota, |pool|)`
      items, all taken from the pool, without repetition when the pool has none. */
  function SampleQuota<T(==)>(pool: seq<T>, quota: nat, draw: Sampler): (r: seq<T>)
    requires ValidSampler(draw)
    ensures |r| == Min(quota, |pool|)
    ensures Elements(r) <= Elements(pool)
    ensures Distinct(pool) ==> Distinct(r)
  {
    var idx := draw(|pool|, Min(quota, |pool|));
    PickFacts(pool, idx);
    Pick(pool, idx)
  }

  /** The permutation behind `train_test_split(..., random_state=42)`. With the
      seed fixed it depends on the number of items alone, so one function serves
      both stages and all three classes, and a split is reproducible. */
  type Shuffle = nat -> seq<nat>

  ghost predicate ValidShuffle(shuffle: Shuffle) {
    forall n: nat :: IsPermutation(shuffle(n), n)
  }

  /** The two `test_size` values the script passes. */
  datatype TestSize = ThreeTenths | OneHalf

  /** The number of test items for `n` items. Assumed rule of scikit-learn for a
      float `test_size`: `ceil(test_size * n)`, taken over the rationals. */
  function TestCount(n: nat, size: TestSize): (t: nat)
    ensures t <= n
  {
    match size
    case ThreeTenths => (3 * n + 9) / 10
    case OneHalf => (n + 1) / 2
  }

  datatype Parts<T> = Parts(train: seq<T>, test: seq<T>)

  datatype SplitError = EmptyTrainSet(size: nat)

  /** `train_test_split(items, test_size=..., random_state=42)`, with the assumed
      scikit-learn behaviour: shuffle, the first `TestCount` shuffled items are
      the test part, the rest the train part, and a `ValueError` when the train
      part would be empty. */
  function TrainTestSplit<T>(items: seq<T>, size: TestSize, shuffle: Shuffle): (r: Result<Parts<T>, SplitError>)
    requires ValidShuffle(shuffle)
    ensures r.Success? <==> TestCount(|items|, size) < |items|
    ensures r.Success? ==> |r.value.test| == TestCount(|items|, size)
    ensures r.Success? ==> |r.value.train| == |items| - TestCount(|items|, size)
  {
    var n := |items|;
    var nTest := TestCount(n, size);
    if n - nTest == 0 then Failure(EmptyTrainSet(n))
    else
      var shuffled := Pick(items, shuffle(n));
      Success(Parts(shuffled[nTest..], shuffled[..nTest]))
  }

  /** The two parts of a split divide the items: together they hold every item,
      and they repeat none and share none when the items are duplicate-free. */
  lemma TrainTestSplitPartition<T>(items: seq<T>, size: TestSize, shuffle: Shuffle)
    requires ValidShuffle(shuffle)
    requires TrainTestSplit(items, size, shuffle).Success?
    ensures var p := TrainTestSplit(items, size, shuffle).value;
      Elements(p.train) + Elements(p.test) == Elements(items) &&
      (Distinct(items) ==> Distinct(p.train + p.test))
  {
    var n := |items|;
    var nTest := TestCount(n, size);
    var shuffled := Pick(items, shuffle(n));
    var p := TrainTestSplit(items, size, shuffle).value;
    assert shuffled == p.test + p.train;
    PickFacts(items, shuffle(n));
    assert Elements(shuffled) == Elements(p.test) + Elements(p.train);
    if Distinct(items) {
      DistinctConcat(p.test, p.train);
      DistinctConcat(p.train, p.test);
    }
  }

  datatype Assignment<T> = Assignment(train: seq<T>, val: seq<T>, test: seq<T>) {
    function All(): seq<T> { train + val + test }
  }

  /** Lines 50-51 and 53-54 of the script: a 0.3 cut into train and temp, then a
      0.5 cut of temp into val and test, both with seed 42. */
  function ThreeWaySplit<T>(items: seq<T>, shuffle: Shuffle): (r: Result<Assignment<T>, SplitError>)
    requires ValidShuffle(shuffle)
  {
    var first := TrainTestSplit(items, ThreeTenths, shuffle);
    if first.Failure? then Failure(first.error)
    else
      var second := TrainTestSplit(first.value.test, OneHalf, shuffle);
      if second.Failure? then Failure(second.error)
      else Success(Assignment(first.value.train, second.value.train, second.value.test))
  }

  /** For every shuffle, train, val and test together hold exactly the sampled
      items, and when the sample is duplicate-free they are pairwise disjoint and
      their sizes add up to the sample size. */
  lemma ThreeWayPartition<T>(items: seq<T>, shuffle: Shuffle)
    requires ValidShuffle(shuffle)
    requires ThreeWaySplit(items, shuffle).Success?
    ensures var a := ThreeWaySplit(items, shuffle).value;
      |a.train| + |a.val| + |a.test| == |items| &&
      Elements(a.train) + Elements(a.val) + Elements(a.test) == Elements(items) &&
      (Distinct(items) ==>
        Distinct(a.All()) &&
        Elements(a.train) !! Elements(a.val) &&
        Elements(a.train) !! Elements(a.test) &&
        Elements(a.val) !! Elements(a.test))
  {
    var first := TrainTestSplit(items, ThreeTenths, shuffle).value;
    var second := TrainTestSplit(first.test, OneHalf, shuffle).value;
    var a := ThreeWaySplit(items, shuffle).value;
    TrainTestSplitPartition(items, ThreeTenths, shuffle);
    TrainTestSplitPartition(first.test, OneHalf, shuffle);
    if Distinct(items) {
      DistinctConcat(first.train, first.test);
      DistinctConcat(second.train, second.test);
      assert Distinct(first.test);
      assert Elements(first.train) !! Elements(second.train) + Elements(second.test);
      DistinctConcat(first.train, second.train);
      DistinctConcat(first.train + second.train, second.test);
      assert Elements(first.train + second.train) == Elements(first.train) + Elements(second.train);
    }
  }

  /** Sizes of train, val and test for a sample of `n` items under the assumed
      rounding rule: `n - ceil(0.3 n)`, then `ceil(0.3 n)` halved with the
      larger half going to test. */
  function SplitSizes(n: nat): (nat, nat, nat) {
    var temp := TestCount(n, ThreeTenths);
    (n - temp, temp - TestCount(temp, OneHalf), TestCount(temp, OneHalf))
  }

  /** The split succeeds exactly for samples of at least four items (below that
      one of the two stages is left with an empty train part), and then the
      parts have the sizes `SplitSizes` gives. */
  lemma ThreeWaySizes<T>(items: seq<T>, shuffle: Shuffle)
    requires ValidShuffle(shuffle)
    ensures ThreeWaySplit(items, shuffle).Success? <==> |items| >= 4
    ensures ThreeWaySplit(items, shuffle).Success? ==>
      var a := ThreeWaySplit(items, shuffle).value;
      (|a.train|, |a.val|, |a.test|) == SplitSizes(|items|)
  {
    var n := |items|;
    var temp := TestCount(n, ThreeTenths);
    if n >= 4 {
      assert temp >= 2;
      assert temp < n;
    } else {
      assert n <= 3 ==> temp == n || temp == 1;
    }
  }

  /** The three quotas of the script split as 350/75/75 (500 items),
      140/30/30 (200 items), and a shortfall of 100 normal images as 70/15/15. */
  lemma QuotaSplitSizes()
    ensures SplitSizes(500) == (350, 75, 75)
    ensures SplitSizes(200) == (140, 30, 30)
    ensures SplitSizes(100) == (70, 15, 15)
  {
  }
}

=== FILE: wrappers.dfy ===
/** Option and Result, for the error paths of the pipeline. */
module Wrappers {

  datatype Option<+T> = None | Some(value: T)

  datatype Result<+T, +E> = Success(value: T) | Failure(error: E)
}
